=== FILE: README.md ===
# puredom TestSuite, modelled in Dafny

This project models the core of puredom's in-browser test runner, `puredom.TestSuite`:

- **The registry.** Tests are registered under a display name. Each test is stored under an *id*, which is the name lower-cased with every run of characters outside `[a-z0-9_]` removed. `add`, `get` and `getList` work on this registry.
- **A run.** `run(name, callback, messageHandler)` looks up the test. It builds a *sandbox controller* (the object the test talks to) and invokes the test's `prepare` and `run` hooks. The test reports back through the sandbox:
  - `status` and `log` are forwarded to the caller's message handler, or otherwise written as a log line;
  - `pass` and `fail` record the verdict;
  - `done` schedules completion on a timer. When the timer fires, a 'status' message is sent and then `finish` runs. `finish` runs `cleanup`, resolves the final result, archives truthy results with a time stamp, fires 'finish', calls the callback and destroys the controller.

Modules:

- `Js` (js.dfy) holds the few JavaScript values a test passes around: their truthiness, and their conversion to text for a log line.
- `Names` (names.dfy) holds id normalisation. The `/[^a-z0-9_]+/g` replacement is modelled as the removal of maximal runs (`StripRuns`). It is proved equal to a per-character filter (`KeepIdChars`), which then yields the algebraic laws.
- `Registry` (registry.dfy) holds the suite's `list` (id ↦ entry), with `add`, `get` and `getList`.
- `Lifecycle` (lifecycle.dfy) is a run as a state machine of pure step functions:
  - `RunState` holds the closure variables of `run` (`finalResult`, `passed`, `sandbox.results`), whether the controller has been destroyed, the queue of pending `setTimeout` callbacks, and a trace of observable events. The events are suite events fired, handler calls, log lines, hook invocations and the callback.
  - A test's behaviour is the sequence of sandbox calls it makes synchronously inside `prepare`, `run` and `cleanup` (`Sync`). `cleanup` runs inside `finish`, on the still-live controller, before the final result is resolved (`RunCleanup`). After `run` returns come actions that interleave later sandbox calls with timer ticks (`Exec`).
  - A call on a destroyed controller yields `Threw`. In the source, such a call dereferences the nulled `controller` variable and raises a TypeError.
- `RunProperties` (lifecycle_props.dfy) holds a run invariant preserved by every step, and what follows from it.
- `Scenarios` (scenarios.dfy) holds whole runs of small tests, worked out to their exact traces.

Where the code behaves differently than a reader might expect, the model follows the code:

- 'status' messages are forwarded to the handler, as 'log' messages are.
- 'result' messages (from `pass`/`fail`) are never forwarded. They only set `passed`.
- Whatever the handler itself returns is ignored: once a handler is supplied, `onMessage` returns `false`, so the default log line is suppressed.
- The deferred completion sends a 'status' message that carries `done`'s argument, and `onMessage` caches it as `finalResult`. So `status("working"); done()` ends with the final result `undefined`, not "working".
- A sandbox call or a pending timer that runs after `destroy` throws. It is not a silent no-op.
- `cleanup` runs before the final result is resolved, on a live controller. A `status` it sends becomes the final result unless `finish` was given truthy results or `sandbox.results` is truthy. A `done` it calls queues a timer that throws when it fires.

## Model

| member | source | states |
|---|---|---|
| Names.Normalize | src/puredom/TestSuite.js:134-136 | the id of any name consists only of characters from `[a-z0-9_]` and is never longer than the name |
| Names.Lower | src/puredom/TestSuite.js:135 | `toLowerCase` keeps the length and maps each character to its lower-case form (ASCII letters shifted by 32, everything else kept) |
| Names.StripRuns | src/puredom/TestSuite.js:135 | removing the maximal runs of non-id characters leaves an id no longer than its input |
| Names.StripRunsIsKeepIdChars | src/puredom/TestSuite.js:135 | the run-removing replacement equals dropping each non-id character one at a time |
| Names.NormalizeIsFilter | src/puredom/TestSuite.js:134-136 | the id is the lower-cased name with exactly its non-id characters dropped, order preserved |
| Names.NormalizeAppend | src/puredom/TestSuite.js:135 | normalisation distributes over concatenation, even when a stripped run straddles the join |
| Names.NormalizeIgnoresPunctuation | src/puredom/TestSuite.js:135 | inserting characters that are not id characters even after lower-casing, anywhere in a name, leaves its id unchanged |
| Names.NormalizeFixpoint | src/puredom/TestSuite.js:134-136 | a string is its own id exactly when it already consists of id characters |
| Names.NormalizeIdempotent | src/puredom/TestSuite.js:134-136 | normalising an id again changes nothing |
| Names.NormalizeIgnoresCase | src/puredom/TestSuite.js:135 | names that differ only in the case of ASCII letters have the same id |
| Names.NormalizeMembers | src/puredom/TestSuite.js:135 | a character occurs in the id exactly when it is an id character and is the lower-case form of some character of the name |
| Names.NormalizeDropsCaseAndPunctuation | src/puredom/TestSuite.js:134-136 | "My Test!" has the id "mytest" |
| Names.NormalizeKeepsUnderscore | src/puredom/TestSuite.js:135 | "my_test" is its own id, so it does not collide with "My Test!" |
| Registry.Add | src/puredom/TestSuite.js:30-37 | `add` stores a fresh entry (display name, test, no results) under the name's id, leaves every other id untouched, and keeps each entry stored under its own name's id |
| Registry.Get | src/puredom/TestSuite.js:114-117 | `get` finds an entry exactly when the name's id is registered, and then returns that entry |
| Registry.GetAfterAdd | src/puredom/TestSuite.js:114-117 | after `add(a, t)`, `get(b)` finds the fresh entry when `a` and `b` have the same id, and otherwise answers as before |
| Registry.GetIgnoresCase | src/puredom/TestSuite.js:114-116 | lookups by names that differ only in ASCII case find the same entry |
| Registry.GetFindsByDisplayName | src/puredom/TestSuite.js:114-117 | when every entry is stored under its own name's id (as `add` keeps it), `get` finds an entry exactly when some stored display name has the same id as the query, and then returns that entry |
| Registry.GetList | src/puredom/TestSuite.js:121-130 | `getList` enumerates the entries with a non-empty name, each exactly once, and lists each one's display name in the enumeration order; a string is listed exactly when some entry carries it as a non-empty name; in a registry built by `add` the names are pairwise distinct |
| Js.Truthy | src/puredom/TestSuite.js:71-79 | a value is truthy (as `if (results)` and `if (sandbox.results)` test it) exactly when it is none of `undefined`, `null`, `false`, `0` and `""` |
| Js.ToString | src/puredom/TestSuite.js:165 | the text a value gives in a log line: a string is itself; a non-negative (safe) integer is its decimal digits, without leading zeros; a negative one is `-` followed by the digits of its magnitude; booleans give `true`/`false`, and `undefined`, `null` and a plain object give `undefined`, `null` and `[object Object]` |
| Js.NumberTextInjective | src/puredom/TestSuite.js:165 | two safe integers with the same log text are equal |
| Js.Decimal | src/puredom/TestSuite.js:165 | a number's decimal text is a non-empty string of digits whose value, read most significant digit first, is the number; it has no leading zero (it starts with `0` only for zero itself) and is one digit long exactly for numbers below ten |
| Lifecycle.LogLine | src/puredom/TestSuite.js:165 | the default log line is `tests["<display name>"] >> ` followed by the message's text, and its length is the sum of those parts |
| Lifecycle.OnMessage | src/puredom/TestSuite.js:52-64 | a 'status' message caches the final result; a 'result' message sets `passed` to whether the message is `true` and is not forwarded; any other message is fired as a suite event and handed to the handler exactly when one was supplied, and only then is the log line suppressed |
| Lifecycle.Emit | src/puredom/TestSuite.js:159-176 | `status`/`log` change only the cached status and the trace; `status` caches its message and `log` keeps the cached status; with a handler the trace gains exactly the suite event for the message and the handler's call, without one exactly the default log line |
| Lifecycle.Defer | src/puredom/TestSuite.js:177-189 | `done` only queues one timer carrying its argument; nothing else changes |
| Lifecycle.Perform | src/puredom/TestSuite.js:155-207 | a sandbox call throws exactly when the controller is destroyed, and then changes nothing; assigning `results` never throws and sets only `sandbox.results`; on a live controller `pass`/`fail` set only `passed` (to true/false) and queue one completion with their argument, `done` only queues one, and `status`/`log` act as `Emit` describes; no call changes the registry or the identity of the run |
| Lifecycle.Finish | src/puredom/TestSuite.js:66-92 | `finish` destroys the controller; the final result is the truthy `results`, else the truthy `sandbox.results`, else the cached status; exactly a truthy `results` is archived with the time stamp on the run's entry and nothing else in the registry changes; `cleanup` (if any) runs first with its sandbox calls on the live controller, and the resolution, `passed` and the trace then continue from the state it leaves; after it the trace gains 'finish', then the callback (if any) |
| Lifecycle.Fire | src/puredom/TestSuite.js:179-187 | a timer throws exactly when the controller was destroyed, and then only leaves the queue; otherwise the trace continues with the 'status' message forwarded to the handler (if any), then `cleanup` (if any), and ends with 'finish' and the callback (if any), and the controller is destroyed; the run's entry archives the timer's value with the tick's time exactly when it is truthy, and no other entry changes; a truthy value is the final result; for a test without `cleanup` nothing else is recorded, `passed` is unchanged and the final result is the timer's value unless that is falsy and `sandbox.results` is truthy; the timers behind it keep their order, and only `cleanup` can queue more |
| Lifecycle.Step | src/puredom/TestSuite.js:177-189 | one later sandbox call or timer tick leaves the identity of the run unchanged |
| Lifecycle.Exec | src/puredom/TestSuite.js:155-207 | any interleaving of later calls and ticks leaves the identity of the run unchanged |
| Lifecycle.Sync | src/puredom/TestSuite.js:102-106 | calls a hook makes synchronously never destroy the controller or change the registry, and only extend the trace; on a live controller they queue exactly the arguments of their `done`, `pass` and `fail` calls, in order |
| Lifecycle.Run | src/puredom/TestSuite.js:43-107 | `run` is a no-op exactly when the name finds no entry or the entry's test has no `run` hook; otherwise the run is live, bound to the entry's id, display name and test, keeps the caller's callback and handler flags and the `cleanup` hook's calls, begins by invoking `prepare` if present, else `run`, invokes `run`, and leaves `passed` null unless a hook called `pass` or `fail`; the pending completions are exactly the arguments of the `done`, `pass` and `fail` calls of `prepare` (when the test has it) and `run`, in order |
| Lifecycle.Start | src/puredom/TestSuite.js:102-106 | the hooks invoked on a fresh controller change only the run's mutable variables and its trace; the trace begins with `prepare` (if present) or `run` and contains `run`; without `pass`/`fail`, `passed` is unchanged; on a live controller the completions queued are those of the calls of `prepare` (when present) and `run`, in order |
| Lifecycle.RunPrepare | src/puredom/TestSuite.js:102-104 | `prepare` is invoked exactly when the test has one, first on the trace; otherwise nothing happens; without `pass`/`fail`, `passed` is unchanged; on a live controller the completions queued are those of its calls, in order |
| Lifecycle.RunCleanup | src/puredom/TestSuite.js:67-69 | without a `cleanup` hook nothing happens; with one, it is invoked next on the trace and its calls run on the live controller, which stays live and bound to the same run; on a live controller the completions queued are those of its `done`, `pass` and `fail` calls, in order |
| Lifecycle.QueuedAppend | src/puredom/TestSuite.js:102-106 | the completions queued by two runs of calls, one after the other, are those of the first followed by those of the second |
| Lifecycle.SyncIsExec | src/puredom/TestSuite.js:155-207 | calls a hook makes synchronously have exactly the effect of the same calls made one by one as later actions of the run |
| RunProperties.OnMessageKeepsInv | src/puredom/TestSuite.js:52-64 | `onMessage` on a live run keeps the run invariant (no 'finish' yet, only events the run's setup allows) |
| RunProperties.EmitKeepsInv | src/puredom/TestSuite.js:159-176 | `status`/`log` keep the run invariant |
| RunProperties.PerformKeepsInv | src/puredom/TestSuite.js:155-207 | every sandbox call keeps the run invariant and only appends to the trace |
| RunProperties.FinishKeepsInv | src/puredom/TestSuite.js:66-92 | `finish` moves the run to the destroyed state with exactly one 'finish' event and, with a callback, exactly one callback, and only appends to the trace |
| RunProperties.FireIsFinish | src/puredom/TestSuite.js:179-187 | a live timer is `onMessage('status', v)` on the run without that timer, followed by `finish(v)` |
| RunProperties.FireKeepsInv | src/puredom/TestSuite.js:179-187 | a timer firing keeps the run invariant and only appends to the trace |
| RunProperties.StepKeepsInv | src/puredom/TestSuite.js:177-189 | every later call or tick keeps the run invariant |
| RunProperties.ExecKeepsInv | src/puredom/TestSuite.js:155-207 | any interleaving of calls and ticks keeps the run invariant and only appends to the trace |
| RunProperties.SyncKeepsInv | src/puredom/TestSuite.js:102-106 | the synchronous calls of the hooks keep the run invariant |
| RunProperties.RunStartsLive | src/puredom/TestSuite.js:94-106 | a run that starts satisfies the run invariant and is not destroyed |
| RunProperties.StartKeepsInv | src/puredom/TestSuite.js:102-106 | the hooks invoked on a freshly wired controller leave it live and satisfying the run invariant |
| RunProperties.CleanupKeepsInv | src/puredom/TestSuite.js:67-69 | `cleanup` and its calls keep the run invariant and leave the controller live |
| RunProperties.RunHookOrder | src/puredom/TestSuite.js:102-106 | the hooks a started run has invoked are exactly `prepare` then `run` when the test has `prepare`, else just `run`, each once |
| RunProperties.FinishHooks | src/puredom/TestSuite.js:66-69 | `finish` invokes `cleanup` exactly once when the test has it and no other hook |
| RunProperties.TickKeepsPassed | src/puredom/TestSuite.js:179-187 | a timer firing leaves `passed` unchanged when `cleanup` calls neither `pass` nor `fail` |
| RunProperties.CallbackAtMostOnce | src/puredom/TestSuite.js:86-90 | for a callback that returns, whatever the test does, 'finish' fires at most once and the callback runs at most once, exactly when the run has ended and a callback was given |
| RunProperties.FinishFollowsEarlierMessages | src/puredom/TestSuite.js:177-187 | every 'finish' event and callback comes after every event recorded before the actions, which are kept as a prefix |
| RunProperties.ForwardingRules | src/puredom/TestSuite.js:56-63 | the handler sees only 'status' and 'log' messages, and only when one was supplied; suite events other than 'finish' occur only with a handler; default log lines occur only without one |
| RunProperties.LateCallsThrow | src/puredom/TestSuite.js:155-157 | after `destroy`, a sandbox call (other than assigning `results`) throws, a tick throws exactly when a timer is still pending, and neither records anything or changes the registry |
| RunProperties.DestroyedRunIsInert | src/puredom/TestSuite.js:155-157 | after `destroy`, no sequence of calls and ticks changes the trace or the registry |
| RunProperties.PassedNeedsResult | src/puredom/TestSuite.js:56-58 | without `pass` or `fail`, made later or from `cleanup`, `passed` never changes |
| RunProperties.CompletionTakesOneTick | src/puredom/TestSuite.js:177-189 | `done(v)` records nothing and does not end the run; the next tick ends it with the resolved final result, archives one record exactly when `v` is truthy, and shows the handler the 'status' message `v`; a truthy `v` is the final result, and for a test without `cleanup` a falsy `v` gives way only to truthy `sandbox.results` |
| RunProperties.PrepareIsExec | src/puredom/TestSuite.js:102-104 | with a `prepare` hook, its calls take effect as the run's first actions, right after the hook is invoked |
| RunProperties.StartIsExec | src/puredom/TestSuite.js:102-106 | the calls of `run` take effect as actions right after the hook is invoked, from the state `prepare` left |
| RunProperties.RunIsExec | src/puredom/TestSuite.js:94-106 | a started run is the freshly wired controller with `prepare` (if any) invoked and its calls acted out, then `run` invoked and its calls acted out |
| RunProperties.CleanupIsExec | src/puredom/TestSuite.js:67-69 | with a `cleanup` hook, its calls take effect as actions right after the hook is invoked |
| Scenarios.StartRunOnly | src/puredom/TestSuite.js:102-106 | a test with only a `run` hook starts by invoking `run` and then performing its synchronous calls |
| Scenarios.AddRunOnlyFinds | src/puredom/TestSuite.js:30-37 | a test just added is found by its name, with an empty results archive |
| Scenarios.EchoRunReturns | src/puredom/TestSuite.js:190-198 | after `run` calls `pass("ok")`, the run is live, `passed` is true and one completion carrying "ok" is pending |
| Scenarios.EchoPasses | src/puredom/TestSuite.js:66-92 | add, run with `pass("ok")`, then one tick: 'finish' and the callback both carry ("ok", true), and the entry archives "ok" with the tick's time |
| Scenarios.EchoTick | src/puredom/TestSuite.js:179-187 | the one tick of that run records 'finish' and the callback with ("ok", true) after `run`, keeps `passed` true and archives "ok" with the tick's time |
| Scenarios.TickFinishes | src/puredom/TestSuite.js:179-187 | a tick with one pending completion sends the 'status' message and then runs `finish` |
| Scenarios.BusyRunReturns | src/puredom/TestSuite.js:159-167 | `status("working"); done()` without a handler writes one log line, caches "working" and leaves one completion pending |
| Scenarios.StatusLogged | src/puredom/TestSuite.js:159-167 | `status(m)` without a handler caches `m` and writes the default log line |
| Scenarios.StatusIsOverwrittenByDone | src/puredom/TestSuite.js:177-185 | `status("working"); done()` calls back with (`undefined`, `null`): the deferred 'status' message overwrites the cached status, and nothing is archived |
| Scenarios.LogForwarded | src/puredom/TestSuite.js:168-176 | `log(m)` with a handler fires a 'log' event, hands the message to the handler and writes no log line |
| Scenarios.PassRecorded | src/puredom/TestSuite.js:190-198 | `pass(v)` on a live run sets `passed` to true and queues `done(v)` |
| Scenarios.TwoLogsForwarded | src/puredom/TestSuite.js:168-176 | two `log` calls with a handler are forwarded in order |
| Scenarios.LogLogPass | src/puredom/TestSuite.js:168-198 | `log("a"); log("b"); pass(v)` with a handler forwards both logs, sets `passed` and queues `v` |
| Scenarios.ChattyRunReturns | src/puredom/TestSuite.js:102-106 | the run of such a test returns live, with the two forwarded logs on its trace |
| Scenarios.TickWithHandler | src/puredom/TestSuite.js:179-187 | with a handler and a callback, a tick shows the handler the 'status' message before 'finish' fires and the callback runs |
| Scenarios.MessagesPrecedeCallback | src/puredom/TestSuite.js:52-64 | with a handler, `log("a"); log("b"); pass(1)` produces exactly: `run` invoked, both logs forwarded, the 'status' 1 forwarded, then 'finish' and the callback with (1, true); the 'result' message never reaches the handler |
| Scenarios.StrayCallsThrow | src/puredom/TestSuite.js:177-187 | with two `done` calls, the first tick ends the run, the second tick throws without recording anything, and a later `done` throws |
| Scenarios.CleanupStatusBecomesResult | src/puredom/TestSuite.js:66-76 | a `status(m)` sent by `cleanup` becomes the final result of a `finish` without results when `sandbox.results` is falsy |
| Scenarios.CleanupDoneThrowsLater | src/puredom/TestSuite.js:67-69 | a `done(v)` called by `cleanup` leaves a timer behind `finish`, and that timer throws when it fires |

## Left out

- The EventEmitter machinery (`puredom.EventEmitter`, `inherits`, `extend`) is not part of this model. `fireEvent` is modelled as a `Fired` event on the trace, and listeners are not modelled.
- `puredom.log` is modelled as a `Logged` event that carries the line. The console is not modelled.
- Timers: `setTimeout(…, 1)` is modelled as a FIFO queue of pending callbacks, which a `Tick` action fires one at a time. A tick with nothing pending does nothing. Real time and delays are not modelled.
- The clock: `new Date().getTime()` is a parameter of each tick.
- Hook bodies are modelled only through the sandbox calls they make synchronously: a test is which hooks it has plus the calls made by `prepare`, `run` and `cleanup`. Anything else a hook computes, exceptions thrown by hooks or handlers, and the handler's own effects are not modelled.
- Exceptions thrown by the caller's callback are not modelled: the callback is taken to return. In the source a callback that throws at src/puredom/TestSuite.js:88 skips `sandboxController.destroy()` (line 90) and the clearing of line 91. The controller then stays live: later sandbox calls stop throwing, and a second pending timer would run `onMessage` and `finish` again, firing a second 'finish' and calling the callback again.
- A step that throws does not abort the actions after it. In the source a throw also skips the rest of the task that made the call, such as the later calls of the same asynchronous callback. Continuing is still faithful: a step throws only once the controller is destroyed, after which every call except assigning `results` throws without effect, and `sandbox.results` is never read again.
- The global assignment `results = test.run(sandbox)` is not modelled. It is an implicit global and has no effect on the suite.
- `controller.onpass` and `controller.onfail` are never assigned, so those branches never run and are left out. This includes the unbound identifier `fail` in the `onfail` call.
- The controller's `messageHandler` and `onfinish` checks are always true until `destroy`, so they are not modelled separately. After `destroy`, reading them throws, which is modelled by `Threw`.
- The aliases `setStatus`, `postMessage`, `finish` and `complete` are the same functions as `status`, `log` and `done`. Each is modelled once.
- `hasOwnProperty` and the prototype-level `list` are not modelled. The registry is a map from ids to entries. The one id that behaves differently is `__proto__`: the assignment at src/puredom/TestSuite.js:32 then sets the prototype of `list` instead of adding an own property, so `get` answers `false` and `getList` leaves the entry out. The model stores it like any other id.
- Names.Normalize: lower-cases ASCII letters only. JavaScript's `toLowerCase` also maps non-ASCII letters, for example the Kelvin sign to `k` and U+0130 to `i` plus a combining dot. So for names containing such letters, the model's id can differ from the source's.
- Names.Normalize: takes a string. The `name+''` coercion of non-string names is not modelled.
- Js.ToString: covers `undefined`, `null`, booleans, safe integers (magnitude at most 2^53 - 1), strings and plain objects. Fractional numbers, `NaN`, larger numbers (printed with rounded digits, and in exponent form such as `1e+21` from 10^21 on), arrays and functions are not modelled, so their text (joined elements, function source) is not either.
- Lifecycle.Run: one run at a time. Overlapping runs are not modelled. A second `add` of the same name during a run is not modelled either: the source would archive into the replaced entry, which is no longer in the registry.
- Lifecycle.Fire: states the exact final result only for tests without `cleanup`; with `cleanup`, a `status` it sends can replace a falsy timer value, which `Scenarios.CleanupStatusBecomesResult` shows for one case.

=== FILE: js.dfy ===
/** The JavaScript values the test suite inspects: payloads of sandbox
    messages and of `done`/`pass`/`fail`. Only the three operations the
    suite applies to them are modelled: truthiness (`if (results)`),
    strict equality with `true` (`message === true`) and string
    conversion (the `+` in a log line). */
module Js {

  /** The safe integers of JavaScript: every one is a number, and its
      text is exactly its decimal digits (from 2^53 on, numbers are
      spaced wider than 1 and print rounded digits, and from 10^21 on
      they print in exponent form). */
  const MaxSafeInteger := 0x1F_FFFF_FFFF_FFFF

  type SafeInt = n: int | -MaxSafeInteger <= n <= MaxSafeInteger

  /** A JavaScript value. Numbers are restricted to safe integers; `Obj`
      is a plain object, identified by a reference. */
  datatype Value =
    | Undefined
    | Null
    | Bool(b: bool)
    | Num(n: SafeInt)
    | Str(s: string)
    | Obj(ref: nat)

  /** JavaScript truthiness: `undefined`, `null`, `false`, `0` and `""` are
      falsy, everything else is truthy. */
  predicate Truthy(v: Value): (b: bool)
    ensures b <==> !(v == Undefined || v == Null || v == Bool(false) || v == Num(0) || v == Str(""))
  {
    match v
    case Undefined => false
    case Null => false
    case Bool(b) => b
    case Num(n) => n != 0
    case Str(s) => s != ""
    case Obj(_) => true
  }

  function DigitChar(d: nat): char
    requires d < 10
  {
    ('0' as int + d) as char
  }

  predicate IsDigits(s: string) {
    forall i :: 0 <= i < |s| ==> '0' <= s[i] <= '9'
  }

  /** Reference reading of a string of decimal digits, most significant
      first. */
  function DigitsValue(s: string): nat
    requires IsDigits(s)
  {
    if s == [] then 0 else 10 * DigitsValue(s[..|s| - 1]) + (s[|s| - 1] as int - '0' as int)
  }

  /** Decimal digits of a natural number, most significant first, without
      leading zeros: the text JavaScript gives a safe integer. */
  function Decimal(n: nat): (r: string)
    ensures 1 <= |r|
    ensures IsDigits(r)
    ensures DigitsValue(r) == n
    ensures r[0] == '0' <==> n == 0
    ensures n < 10 <==> |r| == 1
    decreases n
  {
    if n < 10 then [DigitChar(n)]
    else
      var high := Decimal(n / 10);
      var r := high + [DigitChar(n % 10)];
      assert r[..|r| - 1] == high;
      r
  }

  /** The string a value becomes when concatenated to a string: a string
      is itself, a number its decimal digits after a `-` when negative, and
      every other kind of value a fixed word. */
  function ToString(v: Value): (r: string)
    ensures v.Str? ==> r == v.s
    ensures v.Num? && v.n >= 0 ==> |r| > 0 && IsDigits(r) && DigitsValue(r) == v.n && (r[0] == '0' ==> r == "0")
    ensures v.Num? && v.n < 0 ==>
              |r| > 1 && r[0] == '-' && IsDigits(r[1..]) && DigitsValue(r[1..]) == -v.n && r[1] != '0'
    ensures v.Bool? ==> r == (if v.b then "true" else "false")
    ensures v == Undefined ==> r == "undefined"
    ensures v == Null ==> r == "null"
    ensures v.Obj? ==> r == "[object Object]"
  {
    match v
    case Undefined => "undefined"
    case Null => "null"
    case Bool(b) => if b then "true" else "false"
    case Num(n) => if n < 0 then "-" + Decimal(-n) else Decimal(n)
    case Str(s) => s
    case Obj(_) => "[object Object]"
  }

  /** Different numbers are logged as different text. */
  lemma NumberTextInjective(a: SafeInt, b: SafeInt)
    requires ToString(Num(a)) == ToString(Num(b))
    ensures a == b
  {
    if a < 0 && b < 0 {
      assert ToString(Num(a))[1..] == ToString(Num(b))[1..];
    }
  }
}

=== FILE: lifecycle.dfy ===
/** One run of a registered test (`run`, its inner `onMessage` and
    `finish`, and `_createSandboxController` in src/puredom/TestSuite.js)
    as a state machine of pure step functions.

    The run's closure variables (`finalResult`, `passed`, the sandbox's
    `results` property) and the controller's life are fields of
    `RunState`. Everything observable -- suite events, the caller's
    message handler and callback, log lines and hook invocations -- is
    appended to `trace`. The one-millisecond `setTimeout` of `done` is a
    FIFO queue of pending completions that a `Tick` pops. */
module Lifecycle {
  import opened Js
  import opened Names
  import opened Registry

  /** The message types the sandbox sends through `onMessage`. */
  datatype Kind = Status | Log | Result

  function Topic(k: Kind): string {
    match k
    case Status => "status"
    case Log => "log"
    case Result => "result"
  }

  datatype Hook = Prepare | Body | Cleanup

  datatype Event =
    | Fired(topic: string, name: string, args: seq<Value>)  // self.fireEvent(topic, name, ...args)
    | Handled(kind: Kind, message: Value)                    // the caller's messageHandler(type, message)
    | Logged(line: string)                                   // puredom.log(line)
    | Invoked(hook: Hook)                                    // test.prepare / run / cleanup(sandbox)
    | CalledBack(finalResult: Value, passed: Value)          // callback(finalResult, passed)

  predicate IsFinish(e: Event) {
    e.Fired? && e.topic == "finish"
  }

  predicate IsCallback(e: Event) {
    e.CalledBack?
  }

  /** Number of events of `t` that satisfy `p`. */
  function Count(t: seq<Event>, p: Event -> bool): nat {
    if t == [] then 0 else Count(t[..|t| - 1], p) + (if p(t[|t| - 1]) then 1 else 0)
  }

  /** The state of one run. */
  datatype RunState = RunState(
    list: List,            // the suite's registry; `finish` archives into list[id]
    name: string,          // the name `run` was called with
    id: string,            // its normalised id, the key of the running entry
    title: string,         // the entry's display name, used in log lines
    test: Test,
    cleanupCalls: seq<Call>, // what the test's `cleanup` hook does with the sandbox
    hasCallback: bool,     // a callback was supplied
    hasHandler: bool,      // a messageHandler was supplied
    finalResult: Value,
    passed: Value,         // null until a 'result' message arrives
    sandboxResults: Value, // the sandbox object's `results` property
    pending: seq<Value>,   // arguments of `done` calls whose timer has not fired
    destroyed: bool,       // the controller was destroyed (its references nulled)
    trace: seq<Event>)

  /** The calls a test makes on its sandbox. `SetStatus` stands for
      `status`/`setStatus`, `PostLog` for `log`/`postMessage`, `Done` for
      `done`/`finish`/`complete`; `Assign` is the test storing a value in
      the sandbox's `results` property. */
  datatype Call =
    | SetStatus(message: Value)
    | PostLog(message: Value)
    | Done(results: Value)
    | Pass(results: Value)
    | Fail(results: Value)
    | Assign(results: Value)
  {
    /** `pass` and `fail`, the only calls that send a 'result' message. */
    predicate Reports() {
      Pass? || Fail?
    }
  }

  /** What can happen next to a run: a sandbox call, or the oldest pending
      timer firing at time `now`. */
  datatype Action = Sandbox(call: Call) | Tick(now: int)

  /** A step either returns normally or throws a TypeError because it read
      a field of the controller after `destroy` had nulled it. */
  datatype Outcome = Returned(state: RunState) | Threw(state: RunState)

  /** `r` is a later state of the same run as `s`: what `run` fixed when
      it wired the controller is unchanged. */
  predicate SameRun(s: RunState, r: RunState) {
    && r.name == s.name && r.id == s.id && r.title == s.title && r.test == s.test
    && r.cleanupCalls == s.cleanupCalls
    && r.hasCallback == s.hasCallback && r.hasHandler == s.hasHandler
    && r.list.Keys == s.list.Keys
  }

  /** The line `puredom.log` receives for a status or log message. */
  function LogLine(title: string, message: Value): (line: string)
    ensures |line| == 13 + |title| + |ToString(message)|
    ensures line[..7] == "tests[\"" && line[7..7 + |title|] == title
    ensures line[7 + |title|..13 + |title|] == "\"] >> " && line[13 + |title|..] == ToString(message)
  {
    "tests[\"" + title + "\"] >> " + ToString(message)
  }

  /** The events `onMessage` records when it forwards a message: the suite
      event, then the handler's call. Forwarding needs a handler and never
      happens for 'result'. */
  function Forwarded(s: RunState, kind: Kind, message: Value): seq<Event> {
    if kind != Result && s.hasHandler then [Fired(Topic(kind), s.name, [message]), Handled(kind, message)] else []
  }

  /** `onMessage(type, message)`: the adapter installed as the controller's
      messageHandler. The second component is true when it returns `false`,
      which suppresses the default log line. */
  function OnMessage(s: RunState, kind: Kind, message: Value): (r: (RunState, bool))
    ensures r.0 == s.(finalResult := r.0.finalResult, passed := r.0.passed, trace := r.0.trace)
    ensures kind == Status ==> r.0.finalResult == message
    ensures kind != Status ==> r.0.finalResult == s.finalResult
    ensures kind == Result ==> r.0.passed == Bool(message == Bool(true))
    ensures kind != Result ==> r.0.passed == s.passed
    ensures r.1 <==> kind != Result && s.hasHandler
    ensures r.0.trace == s.trace + Forwarded(s, kind, message)
  {
    var cached := if kind == Status then s.(finalResult := message) else s;
    if kind == Result then
      (cached.(passed := Bool(message == Bool(true))), false)
    else if s.hasHandler then
      (cached.(trace := cached.trace + [Fired(Topic(kind), s.name, [message]), Handled(kind, message)]), true)
    else
      (cached, false)
  }

  /** The body shared by sandbox `status` and `log` on a live controller:
      pass the message through `onMessage`, then write the default log line
      unless it returned `false`. */
  function Emit(s: RunState, kind: Kind, message: Value): (r: RunState)
    requires kind != Result
    ensures r.passed == s.passed && r.pending == s.pending && r.destroyed == s.destroyed
    ensures r.list == s.list
    ensures s.trace <= r.trace
    ensures Logged(LogLine(s.title, message)) in r.trace[|s.trace|..] <==> !s.hasHandler
    ensures Handled(kind, message) in r.trace[|s.trace|..] <==> s.hasHandler
    ensures r.(finalResult := s.finalResult, trace := s.trace) == s
    ensures kind == Status ==> r.finalResult == message
    ensures kind != Status ==> r.finalResult == s.finalResult
    ensures r.trace == s.trace + (if s.hasHandler then Forwarded(s, kind, message) else [Logged(LogLine(s.title, message))])
  {
    var (s1, suppressed) := OnMessage(s, kind, message);
    if suppressed then s1 else s1.(trace := s1.trace + [Logged(LogLine(s.title, message))])
  }

  /** `done(results)` on a live controller: schedule one deferred completion
      and do nothing else. */
  function Defer(s: RunState, results: Value): (r: RunState)
    ensures r.pending == s.pending + [results]
    ensures r.(pending := s.pending) == s
  {
    s.(pending := s.pending + [results])
  }

  /** One sandbox call. Every call except `Assign` first reads the
      controller, so after `destroy` it throws and changes nothing. */
  function Perform(s: RunState, c: Call): (r: Outcome)
    ensures r.Threw? <==> s.destroyed && !c.Assign?
    ensures r.Threw? ==> r.state == s
    ensures c.Done? && !s.destroyed ==> r.state == Defer(s, c.results)
    ensures c.Pass? && !s.destroyed ==>
              r.state.passed == Bool(true) && r.state.pending == s.pending + [c.results] && r.state.trace == s.trace
    ensures c.Fail? && !s.destroyed ==>
              r.state.passed == Bool(false) && r.state.pending == s.pending + [c.results] && r.state.trace == s.trace
    ensures (c.SetStatus? || c.PostLog?) && !s.destroyed ==> r.state.trace != s.trace
    ensures c.SetStatus? && !s.destroyed ==> r.state.finalResult == c.message
    ensures !c.Reports() ==> r.state.passed == s.passed
    ensures s.pending <= r.state.pending
    ensures r.state.list == s.list && r.state.destroyed == s.destroyed
    ensures SameRun(s, r.state)
    ensures c.Assign? ==> r.state == s.(sandboxResults := c.results)
    ensures c.Pass? && !s.destroyed ==> r.state == s.(passed := Bool(true), pending := s.pending + [c.results])
    ensures c.Fail? && !s.destroyed ==> r.state == s.(passed := Bool(false), pending := s.pending + [c.results])
    ensures c.SetStatus? && !s.destroyed ==> r.state == Emit(s, Status, c.message)
    ensures c.PostLog? && !s.destroyed ==> r.state == Emit(s, Log, c.message)
  {
    match c
    case SetStatus(m) => if s.destroyed then Threw(s) else Returned(Emit(s, Status, m))
    case PostLog(m) => if s.destroyed then Threw(s) else Returned(Emit(s, Log, m))
    case Done(v) => if s.destroyed then Threw(s) else Returned(Defer(s, v))
    case Pass(v) => if s.destroyed then Threw(s) else Returned(Defer(OnMessage(s, Result, Bool(true)).0, v))
    case Fail(v) => if s.destroyed then Threw(s) else Returned(Defer(OnMessage(s, Result, Bool(false)).0, v))
    case Assign(v) => Returned(s.(sandboxResults := v))
  }

  /** The resolution of the final result in `finish`. */
  function Resolve(results: Value, sandboxResults: Value, cached: Value): Value {
    if Truthy(results) then results else if Truthy(sandboxResults) then sandboxResults else cached
  }

  /** The events `finish` records after `cleanup`, in order: the suite's
      'finish' event, then the caller's callback (if any). */
  function FinishEvents(s: RunState, finalResult: Value): seq<Event> {
    [Fired("finish", s.name, [finalResult, s.passed])]
    + (if s.hasCallback then [CalledBack(finalResult, s.passed)] else [])
  }

  /** `test.cleanup(sandbox)`, the first thing `finish` does. The sandbox
      is still live, so the hook's calls act as anywhere else: a status
      or an assignment to `results` made here feeds the resolution that
      follows, and a `done` made here leaves a timer behind. */
  function RunCleanup(s: RunState): (r: RunState)
    ensures !s.test.HasCleanup() ==> r == s
    ensures s.test.HasCleanup() ==> |s.trace| < |r.trace| && r.trace[|s.trace|] == Invoked(Cleanup)
    ensures s.trace <= r.trace && s.pending <= r.pending
    ensures r.list == s.list && r.destroyed == s.destroyed && SameRun(s, r)
    ensures !s.destroyed ==> r.pending == s.pending + (if s.test.HasCleanup() then Queued(s.cleanupCalls) else [])
  {
    if s.test.HasCleanup() then Sync(s.(trace := s.trace + [Invoked(Cleanup)]), s.cleanupCalls) else s
  }

  /** `finish(results)`: run `cleanup`, resolve the final result, archive
      `{time, results}` when `results` is truthy, fire 'finish', call back,
      and destroy the controller. */
  function Finish(s: RunState, results: Value, now: int): (r: RunState)
    requires !s.destroyed && s.id in s.list
    ensures r.destroyed && SameRun(s, r)
    ensures Truthy(results) ==> r.finalResult == results
    ensures !Truthy(results) && Truthy(RunCleanup(s).sandboxResults) ==>
              r.finalResult == RunCleanup(s).sandboxResults
    ensures !Truthy(results) && !Truthy(RunCleanup(s).sandboxResults) ==>
              r.finalResult == RunCleanup(s).finalResult
    ensures r.passed == RunCleanup(s).passed && r.pending == RunCleanup(s).pending
    ensures r.list.Keys == s.list.Keys
    ensures forall id :: id in s.list && id != s.id ==> r.list[id] == s.list[id]
    ensures r.list[s.id].name == s.list[s.id].name && r.list[s.id].test == s.list[s.id].test
    ensures r.list[s.id].results ==
              s.list[s.id].results + (if Truthy(results) then [Record(now, results)] else [])
    ensures r.trace == RunCleanup(s).trace + FinishEvents(RunCleanup(s), r.finalResult)
  {
    var c := RunCleanup(s);
    var finalResult := Resolve(results, c.sandboxResults, c.finalResult);
    var ob := s.list[s.id];
    var list := if Truthy(results) then s.list[s.id := ob.(results := ob.results + [Record(now, results)])] else s.list;
    c.(finalResult := finalResult, list := list, trace := c.trace + FinishEvents(c, finalResult), destroyed := true)
  }

  /** The oldest pending timer fires: on a destroyed controller it throws;
      otherwise it sends 'status' with the `done` argument through
      `onMessage` (overwriting any cached status) and then runs `finish`. */
  function Fire(s: RunState, now: int): (r: Outcome)
    requires s.id in s.list && s.pending != []
    ensures r.Threw? <==> s.destroyed
    ensures s.pending[1..] <= r.state.pending
    ensures s.destroyed || !s.test.HasCleanup() ==> r.state.pending == s.pending[1..]
    ensures SameRun(s, r.state)
    ensures s.destroyed ==> r.state == s.(pending := s.pending[1..])
    ensures !s.destroyed ==> r.state.destroyed
    ensures !s.destroyed && Truthy(s.pending[0]) ==> r.state.finalResult == s.pending[0]
    ensures !s.destroyed && !s.test.HasCleanup() ==>
              r.state.finalResult ==
                (if Truthy(s.pending[0]) || !Truthy(s.sandboxResults) then s.pending[0] else s.sandboxResults)
    ensures !s.destroyed ==>
              r.state.list[s.id].results ==
                s.list[s.id].results + (if Truthy(s.pending[0]) then [Record(now, s.pending[0])] else [])
    ensures !s.destroyed ==> forall id :: id in s.list && id != s.id ==> r.state.list[id] == s.list[id]
    ensures !s.destroyed ==> s.trace + Forwarded(s, Status, s.pending[0]) <= r.state.trace
    ensures !s.destroyed && s.test.HasCleanup() ==>
              var k := |s.trace + Forwarded(s, Status, s.pending[0])|;
              k < |r.state.trace| && r.state.trace[k] == Invoked(Cleanup)
    ensures !s.destroyed ==>
              var fin := FinishEvents(r.state, r.state.finalResult);
              |fin| <= |r.state.trace| && r.state.trace[|r.state.trace| - |fin|..] == fin
    ensures !s.destroyed && !s.test.HasCleanup() ==>
              r.state.passed == s.passed &&
              r.state.trace == s.trace + Forwarded(s, Status, s.pending[0]) + FinishEvents(r.state, r.state.finalResult)
  {
    var popped := s.(pending := s.pending[1..]);
    if s.destroyed then Threw(popped)
    else
      var results := s.pending[0];
      Returned(Finish(OnMessage(popped, Status, results).0, results, now))
  }

  /** One step of the environment. A tick with no pending timer is idle. */
  function Step(s: RunState, a: Action): (r: Outcome)
    requires s.id in s.list
    ensures SameRun(s, r.state)
  {
    match a
    case Sandbox(c) => Perform(s, c)
    case Tick(now) => if s.pending == [] then Returned(s) else Fire(s, now)
  }

  /** The state after a sequence of actions. A throwing step ends the
      current call but not the run: the next action sees its state. */
  function Exec(s: RunState, acts: seq<Action>): (r: RunState)
    requires s.id in s.list
    ensures SameRun(s, r)
    decreases |acts|
  {
    if acts == [] then s else Exec(Step(s, acts[0]).state, acts[1..])
  }

  /** Sandbox calls made synchronously from inside a hook. They cannot fire
      a timer, so they neither archive nor destroy. */
  function Sync(s: RunState, calls: seq<Call>): (r: RunState)
    ensures r.list == s.list && r.destroyed == s.destroyed
    ensures r.(finalResult := s.finalResult, passed := s.passed, sandboxResults := s.sandboxResults,
               pending := s.pending, trace := s.trace) == s
    ensures s.trace <= r.trace
    ensures (forall i :: 0 <= i < |calls| ==> !calls[i].Reports()) ==> r.passed == s.passed
    ensures s.pending <= r.pending
    ensures !s.destroyed ==> r.pending == s.pending + Queued(calls)
    decreases |calls|
  {
    if calls == [] then s
    else
      var p := Perform(s, calls[0]).state;
      assert !s.destroyed ==> p.pending == s.pending + Queued([calls[0]]);
      assert Queued(calls) == Queued([calls[0]]) + Queued(calls[1..]);
      Sync(p, calls[1..])
  }

  /** The arguments of the completions `calls` schedule, in order: `done`,
      `pass` and `fail` each queue their argument on a live controller. */
  function Queued(calls: seq<Call>): seq<Value>
    decreases |calls|
  {
    if calls == [] then []
    else (if calls[0].Done? || calls[0].Reports() then [calls[0].results] else []) + Queued(calls[1..])
  }

  lemma {:induction false} QueuedAppend(a: seq<Call>, b: seq<Call>)
    ensures Queued(a + b) == Queued(a) + Queued(b)
    decreases |a|
  {
    if a != [] {
      assert (a + b)[0] == a[0] && (a + b)[1..] == a[1..] + b;
      QueuedAppend(a[1..], b);
      var h := if a[0].Done? || a[0].Reports() then [a[0].results] else [];
      assert Queued(a + b) == h + (Queued(a[1..]) + Queued(b));
      assert Queued(a) == h + Queued(a[1..]);
      assert h + (Queued(a[1..]) + Queued(b)) == (h + Queued(a[1..])) + Queued(b);
    } else {
      assert a + b == b;
    }
  }

  /** What two hooks queue in turn, the first only when `first` holds. */
  lemma QueuedInTurn(p0: seq<Value>, first: bool, a: seq<Call>, b: seq<Call>, p1: seq<Value>, p2: seq<Value>)
    requires p1 == p0 + (if first then Queued(a) else [])
    requires p2 == p1 + Queued(b)
    ensures p2 == p0 + Queued(if first then a + b else b)
  {
    QueuedAppend(a, b);
  }

  /** The actions that make the sandbox calls `calls`, in order. */
  function AsActions(calls: seq<Call>): (acts: seq<Action>)
    ensures |acts| == |calls|
    ensures forall i :: 0 <= i < |calls| ==> acts[i] == Sandbox(calls[i])
    decreases |calls|
  {
    if calls == [] then [] else [Sandbox(calls[0])] + AsActions(calls[1..])
  }

  /** Calls a hook makes synchronously have exactly the effect of the same
      calls made one by one as actions of the run. */
  lemma {:induction false} SyncIsExec(s: RunState, calls: seq<Call>)
    requires s.id in s.list
    ensures Sync(s, calls) == Exec(s, AsActions(calls))
    decreases |calls|
  {
    if calls != [] {
      var p := Perform(s, calls[0]).state;
      assert AsActions(calls)[1..] == AsActions(calls[1..]);
      assert Step(s, AsActions(calls)[0]).state == p;
      SyncIsExec(p, calls[1..]);
    }
  }

  /** The state `run` wires up before calling any hook. */
  function Wire(list: List, name: string, ob: Entry, hasCallback: bool, hasHandler: bool,
                inCleanup: seq<Call>): RunState {
    RunState(list, name, Normalize(name), ob.name, ob.test, inCleanup, hasCallback, hasHandler,
             Undefined, Null, Undefined, [], false, [])
  }

  /** `run(name, callback, messageHandler)`: a silent no-op unless the name
      finds an entry whose test has a `run` hook; otherwise wire a fresh
      controller, invoke `prepare` (if any) and `run`, each followed by the
      sandbox calls it makes synchronously. `inCleanup` is what the test's
      `cleanup` hook will do when `finish` calls it. */
  function Run(list: List, name: string, hasCallback: bool, hasHandler: bool,
               inPrepare: seq<Call>, inRun: seq<Call>, inCleanup: seq<Call>): (r: Option<RunState>)
    ensures r.None? <==> Get(list, name).None? || !Get(list, name).value.test.Runnable()
    ensures r.Some? ==>
              && r.value.list == list && r.value.id == Normalize(name) && r.value.id in list
              && r.value.name == name && r.value.title == list[r.value.id].name
              && r.value.test == list[r.value.id].test && r.value.cleanupCalls == inCleanup
              && r.value.hasCallback == hasCallback && r.value.hasHandler == hasHandler
              && !r.value.destroyed && r.value.test.Runnable()
              && |r.value.trace| > 0
              && r.value.trace[0] == Invoked(if r.value.test.HasPrepare() then Prepare else Body)
              && Invoked(Body) in r.value.trace
    ensures r.Some? && (forall i :: 0 <= i < |inPrepare + inRun| ==> !(inPrepare + inRun)[i].Reports()) ==>
              r.value.passed == Null
    ensures r.Some? ==> r.value.pending == Queued(if r.value.test.HasPrepare() then inPrepare + inRun else inRun)
  {
    match Get(list, name)
    case None => None
    case Some(ob) =>
      if !ob.test.Runnable() then None
      else
        var wired := Wire(list, name, ob, hasCallback, hasHandler, inCleanup);
        var started := Start(wired, inPrepare, inRun);
        assert started.pending == [] + Queued(if ob.test.HasPrepare() then inPrepare + inRun else inRun);
        Some(started)
  }

  /** The hooks `run` invokes on a freshly wired controller: `prepare` (if
      the test has one) followed by its synchronous calls, then `run`
      followed by its own. */
  function Start(wired: RunState, inPrepare: seq<Call>, inRun: seq<Call>): (r: RunState)
    requires wired.trace == []
    ensures r.(finalResult := wired.finalResult, passed := wired.passed, sandboxResults := wired.sandboxResults,
               pending := wired.pending, trace := []) == wired
    ensures |r.trace| > 0 && r.trace[0] == Invoked(if wired.test.HasPrepare() then Prepare else Body)
    ensures Invoked(Body) in r.trace
    ensures (forall i :: 0 <= i < |inPrepare + inRun| ==> !(inPrepare + inRun)[i].Reports()) ==>
              r.passed == wired.passed
    ensures !wired.destroyed ==>
              r.pending == wired.pending + Queued(if wired.test.HasPrepare() then inPrepare + inRun else inRun)
  {
    var prepared := RunPrepare(wired, inPrepare);
    var started := prepared.(trace := prepared.trace + [Invoked(Body)]);
    assert started.trace[|prepared.trace|] == Invoked(Body);
    assert forall i :: 0 <= i < |inPrepare| ==> inPrepare[i] == (inPrepare + inRun)[i];
    assert forall i :: 0 <= i < |inRun| ==> inRun[i] == (inPrepare + inRun)[|inPrepare| + i];
    var r := Sync(started, inRun);
    if wired.destroyed then r
    else
      QueuedInTurn(wired.pending, wired.test.HasPrepare(), inPrepare, inRun, started.pending, r.pending);
      r
  }

  /** `if (test.prepare) test.prepare(sandbox)` on a freshly wired
      controller, with the calls `prepare` makes. */
  function RunPrepare(wired: RunState, inPrepare: seq<Call>): (r: RunState)
    requires wired.trace == []
    ensures r.(finalResult := wired.finalResult, passed := wired.passed, sandboxResults := wired.sandboxResults,
               pending := wired.pending, trace := []) == wired
    ensures !wired.test.HasPrepare() ==> r == wired
    ensures wired.test.HasPrepare() ==> |r.trace| > 0 && r.trace[0] == Invoked(Prepare)
    ensures (forall i :: 0 <= i < |inPrepare| ==> !inPrepare[i].Reports()) ==> r.passed == wired.passed
    ensures !wired.destroyed ==> r.pending == wired.pending + (if wired.test.HasPrepare() then Queued(inPrepare) else [])
  {
    if wired.test.HasPrepare() then Sync(wired.(trace := [Invoked(Prepare)]), inPrepare) else wired
  }
}

=== FILE: lifecycle_props.dfy ===
/** Properties of a run: an invariant every step keeps, and what it gives
    across whole executions -- at most one 'finish' and one callback,
    'finish' after every earlier message, no 'result' ever forwarded, a
    destroyed run that only throws, and completion exactly one tick after
    `done`. */
module RunProperties {
  import opened Js
  import opened Names
  import opened Registry
  import opened Lifecycle

  /** Which events a run may ever record, given how it was started. */
  predicate Allowed(s: RunState, e: Event) {
    match e
    case Fired(topic, _, _) => topic == "finish" || (s.hasHandler && (topic == "status" || topic == "log"))
    case Handled(kind, _) => s.hasHandler && kind != Result
    case Logged(_) => !s.hasHandler
    case Invoked(h) => (h == Prepare ==> s.test.HasPrepare()) && (h == Cleanup ==> s.test.HasCleanup())
    case CalledBack(_, _) => s.hasCallback
  }

  /** The run invariant: 'finish' has fired, and the callback has been
      called, exactly once if the controller is destroyed and never
      before; `passed` is null or a boolean; and every recorded event is
      allowed. */
  predicate Inv(s: RunState) {
    && s.id in s.list
    && s.test.Runnable()
    && (s.passed == Null || s.passed.Bool?)
    && Count(s.trace, IsFinish) == (if s.destroyed then 1 else 0)
    && Count(s.trace, IsCallback) == (if s.destroyed && s.hasCallback then 1 else 0)
    && forall i :: 0 <= i < |s.trace| ==> Allowed(s, s.trace[i])
  }

  lemma {:induction false} CountAppend(t: seq<Event>, u: seq<Event>, p: Event -> bool)
    ensures Count(t + u, p) == Count(t, p) + Count(u, p)
    decreases |u|
  {
    if u == [] {
      assert t + u == t;
    } else {
      var init := u[..|u| - 1];
      assert (t + u)[..|t + u| - 1] == t + init;
      assert (t + u)[|t + u| - 1] == u[|u| - 1];
      CountAppend(t, init, p);
    }
  }

  lemma {:induction false} CountPositive(t: seq<Event>, p: Event -> bool, j: int)
    requires 0 <= j < |t| && p(t[j])
    ensures Count(t, p) > 0
    decreases |t|
  {
    if j < |t| - 1 {
      assert t[..|t| - 1][j] == t[j];
      CountPositive(t[..|t| - 1], p, j);
    }
  }

  /** Appending events none of which is 'finish' or a callback keeps both
      counts, and keeps the invariant when the new events are allowed. */
  lemma AppendQuiet(s: RunState, u: seq<Event>, r: RunState)
    requires Inv(s)
    requires r == s.(trace := s.trace + u, finalResult := r.finalResult, passed := r.passed,
                     sandboxResults := r.sandboxResults, pending := r.pending)
    requires r.passed == Null || r.passed.Bool?
    requires forall i :: 0 <= i < |u| ==> !IsFinish(u[i]) && !IsCallback(u[i]) && Allowed(s, u[i])
    ensures Inv(r)
  {
    CountAppend(s.trace, u, IsFinish);
    CountAppend(s.trace, u, IsCallback);
    QuietCount(u, IsFinish);
    QuietCount(u, IsCallback);
  }

  lemma {:induction false} QuietCount(u: seq<Event>, p: Event -> bool)
    requires forall i :: 0 <= i < |u| ==> !p(u[i])
    ensures Count(u, p) == 0
    decreases |u|
  {
    if u != [] {
      QuietCount(u[..|u| - 1], p);
    }
  }

  lemma OnMessageKeepsInv(s: RunState, kind: Kind, message: Value)
    requires Inv(s) && !s.destroyed
    ensures Inv(OnMessage(s, kind, message).0)
  {
    var r := OnMessage(s, kind, message).0;
    var u := r.trace[|s.trace|..];
    assert r.trace == s.trace + u;
    AppendQuiet(s, u, r);
  }

  lemma EmitKeepsInv(s: RunState, kind: Kind, message: Value)
    requires Inv(s) && !s.destroyed && kind != Result
    ensures Inv(Emit(s, kind, message))
  {
    var r := Emit(s, kind, message);
    var u := r.trace[|s.trace|..];
    assert r.trace == s.trace + u;
    AppendQuiet(s, u, r);
  }

  /** Every sandbox call keeps the invariant and only appends to the trace. */
  lemma PerformKeepsInv(s: RunState, c: Call)
    requires Inv(s)
    ensures Inv(Perform(s, c).state)
    ensures s.trace <= Perform(s, c).state.trace
  {
    if !s.destroyed {
      match c
      case SetStatus(m) => EmitKeepsInv(s, Status, m);
      case PostLog(m) => EmitKeepsInv(s, Log, m);
      case Pass(v) => OnMessageKeepsInv(s, Result, Bool(true));
      case Fail(v) => OnMessageKeepsInv(s, Result, Bool(false));
      case _ =>
    }
  }

  lemma CountSnoc(t: seq<Event>, e: Event, p: Event -> bool)
    ensures Count(t + [e], p) == Count(t, p) + (if p(e) then 1 else 0)
  {
    assert (t + [e])[..|t|] == t;
  }

  lemma FinishEventsCount(s: RunState, finalResult: Value)
    ensures Count(FinishEvents(s, finalResult), IsFinish) == 1
    ensures Count(FinishEvents(s, finalResult), IsCallback) == (if s.hasCallback then 1 else 0)
  {
    var fin := Fired("finish", s.name, [finalResult, s.passed]);
    CountSnoc([], fin, IsFinish);
    CountSnoc([], fin, IsCallback);
    assert [] + [fin] == [fin];
    if s.hasCallback {
      var cb := CalledBack(finalResult, s.passed);
      CountSnoc([fin], cb, IsFinish);
      CountSnoc([fin], cb, IsCallback);
    } else {
      assert FinishEvents(s, finalResult) == [fin];
    }
  }

  lemma FinishEventsAllowed(s: RunState, finalResult: Value)
    ensures forall i :: 0 <= i < |FinishEvents(s, finalResult)| ==> Allowed(s, FinishEvents(s, finalResult)[i])
  {
  }

  lemma AllowedInSameRun(s: RunState, r: RunState, e: Event)
    requires SameRun(s, r) && Allowed(s, e)
    ensures Allowed(r, e)
  {
  }

  /** The `cleanup` hook runs on a live run, so it keeps the invariant. */
  lemma CleanupKeepsInv(s: RunState)
    requires Inv(s) && !s.destroyed
    ensures Inv(RunCleanup(s)) && !RunCleanup(s).destroyed
  {
    if s.test.HasCleanup() {
      var w := s.(trace := s.trace + [Invoked(Cleanup)]);
      AppendQuiet(s, [Invoked(Cleanup)], w);
      SyncKeepsInv(w, s.cleanupCalls);
    }
  }

  lemma FinishKeepsInv(s: RunState, results: Value, now: int)
    requires Inv(s) && !s.destroyed
    ensures Inv(Finish(s, results, now))
    ensures s.trace <= Finish(s, results, now).trace
  {
    var c := RunCleanup(s);
    CleanupKeepsInv(s);
    var r := Finish(s, results, now);
    var u := FinishEvents(c, r.finalResult);
    assert r.trace == c.trace + u;
    FinishEventsCount(c, r.finalResult);
    FinishEventsAllowed(c, r.finalResult);
    CountAppend(c.trace, u, IsFinish);
    CountAppend(c.trace, u, IsCallback);
    assert SameRun(c, r);
    forall i | 0 <= i < |r.trace|
      ensures Allowed(r, r.trace[i])
    {
      var e := r.trace[i];
      if i < |c.trace| {
        assert e == c.trace[i];
        assert Allowed(c, e);
      } else {
        assert e == u[i - |c.trace|];
        assert Allowed(c, e);
      }
      AllowedInSameRun(c, r, e);
    }
  }

  lemma FireKeepsInv(s: RunState, now: int)
    requires Inv(s) && s.pending != []
    ensures Inv(Fire(s, now).state)
    ensures s.trace <= Fire(s, now).state.trace
  {
    if !s.destroyed {
      TickFinishKeepsInv(s, now);
      FireIsFinish(s, now);
    }
  }

  /** What a live timer does, `onMessage('status', v)` then `finish(v)`,
      keeps the run invariant and only appends to the trace. */
  lemma TickFinishKeepsInv(s: RunState, now: int)
    requires Inv(s) && s.pending != [] && !s.destroyed
    ensures var r := Finish(OnMessage(s.(pending := s.pending[1..]), Status, s.pending[0]).0, s.pending[0], now);
            Inv(r) && s.trace <= r.trace
  {
    var popped := s.(pending := s.pending[1..]);
    PopKeepsInv(s);
    var m := OnMessage(popped, Status, s.pending[0]).0;
    OnMessageKeepsInv(popped, Status, s.pending[0]);
    FinishKeepsInv(m, s.pending[0], now);
  }

  lemma PopKeepsInv(s: RunState)
    requires Inv(s) && s.pending != []
    ensures Inv(s.(pending := s.pending[1..]))
  {
    var popped := s.(pending := s.pending[1..]);
    assert SameRun(s, popped);
    forall i | 0 <= i < |popped.trace|
      ensures Allowed(popped, popped.trace[i])
    {
      AllowedInSameRun(s, popped, s.trace[i]);
    }
  }

  lemma FireIsFinish(s: RunState, now: int)
    requires s.id in s.list && s.pending != [] && !s.destroyed
    ensures Fire(s, now).state ==
              Finish(OnMessage(s.(pending := s.pending[1..]), Status, s.pending[0]).0, s.pending[0], now)
  {
  }

  lemma StepKeepsInv(s: RunState, a: Action)
    requires Inv(s)
    ensures Inv(Step(s, a).state)
    ensures s.trace <= Step(s, a).state.trace
  {
    match a
    case Sandbox(c) => PerformKeepsInv(s, c);
    case Tick(now) => if s.pending != [] { FireKeepsInv(s, now); }
  }

  lemma {:induction false} ExecKeepsInv(s: RunState, acts: seq<Action>)
    requires Inv(s)
    ensures Inv(Exec(s, acts))
    ensures s.trace <= Exec(s, acts).trace
    decreases |acts|
  {
    if acts != [] {
      StepKeepsInv(s, acts[0]);
      ExecKeepsInv(Step(s, acts[0]).state, acts[1..]);
    }
  }

  lemma {:induction false} SyncKeepsInv(s: RunState, calls: seq<Call>)
    requires Inv(s)
    ensures Inv(Sync(s, calls))
    decreases |calls|
  {
    if calls != [] {
      PerformKeepsInv(s, calls[0]);
      SyncKeepsInv(Perform(s, calls[0]).state, calls[1..]);
    }
  }

  /** A run that starts is live, and satisfies the invariant. */
  lemma RunStartsLive(list: List, name: string, hasCallback: bool, hasHandler: bool,
                      inPrepare: seq<Call>, inRun: seq<Call>, inCleanup: seq<Call>)
    ensures Run(list, name, hasCallback, hasHandler, inPrepare, inRun, inCleanup).Some? ==>
              Inv(Run(list, name, hasCallback, hasHandler, inPrepare, inRun, inCleanup).value) &&
              !Run(list, name, hasCallback, hasHandler, inPrepare, inRun, inCleanup).value.destroyed
  {
    var g := Get(list, name);
    if g.Some? && g.value.test.Runnable() {
      StartKeepsInv(Wire(list, name, g.value, hasCallback, hasHandler, inCleanup), inPrepare, inRun);
    }
  }

  /** The hooks `run` invokes on a freshly wired controller leave it live
      and well-formed. */
  lemma StartKeepsInv(wired: RunState, inPrepare: seq<Call>, inRun: seq<Call>)
    requires wired.trace == [] && wired.id in wired.list && wired.test.Runnable()
    requires wired.passed == Null && !wired.destroyed
    ensures Inv(Start(wired, inPrepare, inRun)) && !Start(wired, inPrepare, inRun).destroyed
  {
    var prepared := RunPrepare(wired, inPrepare);
    if wired.test.HasPrepare() {
      var w := wired.(trace := [Invoked(Prepare)]);
      assert Count(w.trace, IsFinish) == 0 && Count(w.trace, IsCallback) == 0 by {
        assert w.trace[..0] == [];
      }
      SyncKeepsInv(w, inPrepare);
    }
    var b := prepared.(trace := prepared.trace + [Invoked(Body)]);
    AppendQuiet(prepared, [Invoked(Body)], b);
    SyncKeepsInv(b, inRun);
  }

  /** For a callback that returns, whatever the test and the timers do,
      'finish' fires at most once and the callback is called at most once --
      exactly once each when the run has completed and a callback was
      supplied, and never before. */
  lemma {:induction false} CallbackAtMostOnce(s: RunState, acts: seq<Action>)
    requires Inv(s)
    ensures Count(Exec(s, acts).trace, IsFinish) <= 1
    ensures Count(Exec(s, acts).trace, IsCallback) <= (if s.hasCallback then 1 else 0)
    ensures Count(Exec(s, acts).trace, IsCallback) == 1 <==> Exec(s, acts).destroyed && s.hasCallback
  {
    ExecKeepsInv(s, acts);
  }

  /** Every message delivered before the test calls `done` (indeed, every
      event recorded while the run is live) precedes the 'finish' event and
      the callback. */
  lemma {:induction false} FinishFollowsEarlierMessages(s: RunState, acts: seq<Action>)
    requires Inv(s) && !s.destroyed
    ensures s.trace <= Exec(s, acts).trace
    ensures forall j :: 0 <= j < |Exec(s, acts).trace| &&
                        (IsFinish(Exec(s, acts).trace[j]) || IsCallback(Exec(s, acts).trace[j])) ==>
                          |s.trace| <= j
  {
    var r := Exec(s, acts);
    ExecKeepsInv(s, acts);
    forall j | 0 <= j < |r.trace| && (IsFinish(r.trace[j]) || IsCallback(r.trace[j]))
      ensures |s.trace| <= j
    {
      if j < |s.trace| {
        assert s.trace[j] == r.trace[j];
        if IsFinish(s.trace[j]) {
          CountPositive(s.trace, IsFinish, j);
        } else {
          CountPositive(s.trace, IsCallback, j);
        }
      }
    }
  }

  /** The caller's handler never sees a 'result' message, a run without a
      handler forwards nothing but 'finish', and a run with one writes no
      default log line. */
  lemma {:induction false} ForwardingRules(s: RunState, acts: seq<Action>)
    requires Inv(s)
    ensures forall e :: e in Exec(s, acts).trace && e.Handled? ==> s.hasHandler && e.kind != Result
    ensures forall e :: e in Exec(s, acts).trace && e.Fired? && e.topic != "finish" ==>
              s.hasHandler && e.topic != "result"
    ensures forall e :: e in Exec(s, acts).trace && e.Logged? ==> !s.hasHandler
  {
    ExecKeepsInv(s, acts);
    var r := Exec(s, acts);
    assert r.hasHandler == s.hasHandler;
    forall e | e in r.trace
      ensures Allowed(s, e)
    {
      var i :| 0 <= i < |r.trace| && r.trace[i] == e;
    }
  }

  /** After `destroy`, every sandbox call except a property assignment, and
      every remaining timer, throws; nothing is recorded and the callback
      is not called again. */
  lemma LateCallsThrow(s: RunState, a: Action)
    requires Inv(s) && s.destroyed
    ensures Step(s, a).Threw? <==> (a.Sandbox? && !a.call.Assign?) || (a.Tick? && s.pending != [])
    ensures Step(s, a).state.trace == s.trace && Step(s, a).state.list == s.list
  {
  }

  lemma {:induction false} DestroyedRunIsInert(s: RunState, acts: seq<Action>)
    requires Inv(s) && s.destroyed
    ensures Exec(s, acts).trace == s.trace
    ensures Exec(s, acts).list == s.list
    ensures Exec(s, acts).destroyed
    decreases |acts|
  {
    if acts != [] {
      LateCallsThrow(s, acts[0]);
      StepKeepsInv(s, acts[0]);
      DestroyedRunIsInert(Step(s, acts[0]).state, acts[1..]);
    }
  }

  predicate ReportsResult(a: Action) {
    a.Sandbox? && a.call.Reports()
  }

  /** A timer that fires leaves `passed` alone unless the `cleanup` hook
      it runs calls `pass` or `fail`. */
  lemma TickKeepsPassed(s: RunState, now: int)
    requires s.id in s.list && s.pending != []
    requires forall i :: 0 <= i < |s.cleanupCalls| ==> !s.cleanupCalls[i].Reports()
    ensures Fire(s, now).state.passed == s.passed
  {
    if !s.destroyed {
      var m := OnMessage(s.(pending := s.pending[1..]), Status, s.pending[0]).0;
      assert RunCleanup(m).passed == m.passed;
    }
  }

  /** `passed` changes only through `pass` and `fail`: with neither, made
      later or from the `cleanup` hook, it stays what it was. */
  lemma {:induction false} PassedNeedsResult(s: RunState, acts: seq<Action>)
    requires s.id in s.list
    requires forall i :: 0 <= i < |acts| ==> !ReportsResult(acts[i])
    requires forall i :: 0 <= i < |s.cleanupCalls| ==> !s.cleanupCalls[i].Reports()
    ensures Exec(s, acts).passed == s.passed
    decreases |acts|
  {
    if acts != [] {
      var r := Step(s, acts[0]).state;
      assert !ReportsResult(acts[0]);
      if acts[0].Tick? && s.pending != [] {
        TickKeepsPassed(s, acts[0].now);
      }
      assert r.passed == s.passed;
      PassedNeedsResult(r, acts[1..]);
    }
  }

  /** `done` only schedules: nothing observable happens until exactly one
      tick later, when the 'status' message carrying the `done` argument
      replaces any cached status, and `finish` resolves the final result to
      that argument unless it is falsy and the sandbox holds truthy results;
      one record is archived exactly when the argument is truthy. */
  lemma CompletionTakesOneTick(s: RunState, v: Value, now: int)
    requires Inv(s) && !s.destroyed && s.pending == []
    ensures Exec(s, [Sandbox(Done(v))]).trace == s.trace
    ensures !Exec(s, [Sandbox(Done(v))]).destroyed
    ensures Exec(s, [Sandbox(Done(v)), Tick(now)]).destroyed
    ensures Truthy(v) ==> Exec(s, [Sandbox(Done(v)), Tick(now)]).finalResult == v
    ensures !s.test.HasCleanup() ==>
              Exec(s, [Sandbox(Done(v)), Tick(now)]).finalResult ==
                (if Truthy(v) || !Truthy(s.sandboxResults) then v else s.sandboxResults)
    ensures |Exec(s, [Sandbox(Done(v)), Tick(now)]).list[s.id].results| ==
              |s.list[s.id].results| + (if Truthy(v) then 1 else 0)
    ensures s.hasHandler ==> Handled(Status, v) in Exec(s, [Sandbox(Done(v)), Tick(now)]).trace
  {
    var d := Defer(s, v);
    assert Exec(s, [Sandbox(Done(v))]) == d by {
      assert Exec(d, []) == d;
    }
    var f := Fire(d, now).state;
    assert Exec(s, [Sandbox(Done(v)), Tick(now)]) == f by {
      assert Step(s, Sandbox(Done(v))).state == d;
      assert [Sandbox(Done(v)), Tick(now)][1..] == [Tick(now)];
      assert Step(d, Tick(now)).state == f;
      assert Exec(f, []) == f;
      assert Exec(d, [Tick(now)]) == f;
    }
    var popped := d.(pending := []);
    var m := OnMessage(popped, Status, v).0;
    assert f == Finish(m, v, now);
    if s.hasHandler {
      assert m.trace[|s.trace| + 1] == Handled(Status, v);
      assert RunCleanup(m).trace[|s.trace| + 1] == Handled(Status, v);
      assert f.trace[|s.trace| + 1] == Handled(Status, v);
    }
  }

  /** The hooks a trace shows invoked, in order. */
  function Hooks(t: seq<Event>): seq<Hook> {
    if t == [] then []
    else Hooks(t[..|t| - 1]) + (if t[|t| - 1].Invoked? then [t[|t| - 1].hook] else [])
  }

  lemma {:induction false} HooksAppend(t: seq<Event>, u: seq<Event>)
    ensures Hooks(t + u) == Hooks(t) + Hooks(u)
    decreases |u|
  {
    if u == [] {
      assert t + u == t;
    } else {
      var init := u[..|u| - 1];
      assert (t + u)[..|t + u| - 1] == t + init;
      assert (t + u)[|t + u| - 1] == u[|u| - 1];
      HooksAppend(t, init);
    }
  }

  lemma {:induction false} QuietHooks(u: seq<Event>)
    requires forall i :: 0 <= i < |u| ==> !u[i].Invoked?
    ensures Hooks(u) == []
    decreases |u|
  {
    if u != [] {
      QuietHooks(u[..|u| - 1]);
    }
  }

  lemma HooksOfOne(h: Hook)
    ensures Hooks([Invoked(h)]) == [h]
  {
    assert [Invoked(h)][..0] == [];
  }

  /** A sandbox call never invokes a hook. */
  lemma PerformKeepsHooks(s: RunState, c: Call)
    ensures Hooks(Perform(s, c).state.trace) == Hooks(s.trace)
  {
    if !s.destroyed {
      match c
      case SetStatus(m) => EmitKeepsHooks(s, Status, m);
      case PostLog(m) => EmitKeepsHooks(s, Log, m);
      case _ =>
    }
  }

  lemma EmitKeepsHooks(s: RunState, kind: Kind, message: Value)
    requires kind != Result
    ensures Hooks(Emit(s, kind, message).trace) == Hooks(s.trace)
  {
    var r := Emit(s, kind, message);
    var u := r.trace[|s.trace|..];
    assert r.trace == s.trace + u;
    assert forall i :: 0 <= i < |u| ==> !u[i].Invoked?;
    HooksAppend(s.trace, u);
    QuietHooks(u);
  }

  lemma {:induction false} SyncKeepsHooks(s: RunState, calls: seq<Call>)
    ensures Hooks(Sync(s, calls).trace) == Hooks(s.trace)
    decreases |calls|
  {
    if calls != [] {
      PerformKeepsHooks(s, calls[0]);
      SyncKeepsHooks(Perform(s, calls[0]).state, calls[1..]);
    }
  }

  /** `run` invokes `prepare` (when the test has it) and then `run`, each
      exactly once and in that order; `cleanup` waits for `finish`. */
  lemma RunHookOrder(list: List, name: string, hasCallback: bool, hasHandler: bool,
                     inPrepare: seq<Call>, inRun: seq<Call>, inCleanup: seq<Call>)
    ensures var r := Run(list, name, hasCallback, hasHandler, inPrepare, inRun, inCleanup);
            r.Some? ==> Hooks(r.value.trace) == (if r.value.test.HasPrepare() then [Prepare, Body] else [Body])
  {
    var g := Get(list, name);
    if g.Some? && g.value.test.Runnable() {
      var wired := Wire(list, name, g.value, hasCallback, hasHandler, inCleanup);
      var prepared := if wired.test.HasPrepare() then Sync(wired.(trace := [Invoked(Prepare)]), inPrepare) else wired;
      if wired.test.HasPrepare() {
        HooksOfOne(Prepare);
        SyncKeepsHooks(wired.(trace := [Invoked(Prepare)]), inPrepare);
      }
      HooksOfOne(Body);
      HooksAppend(prepared.trace, [Invoked(Body)]);
      SyncKeepsHooks(prepared.(trace := prepared.trace + [Invoked(Body)]), inRun);
    }
  }

  /** `finish` invokes `cleanup` exactly when the test has one, and no
      other hook. */
  lemma FinishHooks(s: RunState, results: Value, now: int)
    requires !s.destroyed && s.id in s.list
    ensures Hooks(Finish(s, results, now).trace) ==
              Hooks(s.trace) + (if s.test.HasCleanup() then [Cleanup] else [])
  {
    var c := RunCleanup(s);
    CleanupHooks(s);
    var r := Finish(s, results, now);
    var u := FinishEvents(c, r.finalResult);
    assert r.trace == c.trace + u;
    HooksAppend(c.trace, u);
    FinishEventsQuiet(c, r.finalResult);
  }

  lemma FinishEventsQuiet(s: RunState, finalResult: Value)
    ensures Hooks(FinishEvents(s, finalResult)) == []
  {
    QuietHooks(FinishEvents(s, finalResult));
  }

  lemma CleanupHooks(s: RunState)
    ensures Hooks(RunCleanup(s).trace) == Hooks(s.trace) + (if s.test.HasCleanup() then [Cleanup] else [])
  {
    if s.test.HasCleanup() {
      HooksOfOne(Cleanup);
      HooksAppend(s.trace, [Invoked(Cleanup)]);
      SyncKeepsHooks(s.(trace := s.trace + [Invoked(Cleanup)]), s.cleanupCalls);
    } else {
      assert Hooks(s.trace) + [] == Hooks(s.trace);
    }
  }

  /** The calls `prepare` makes take effect as the run's first actions,
      right after the hook is invoked. */
  lemma PrepareIsExec(wired: RunState, inPrepare: seq<Call>)
    requires wired.trace == [] && wired.id in wired.list && wired.test.HasPrepare()
    ensures RunPrepare(wired, inPrepare) == Exec(wired.(trace := [Invoked(Prepare)]), AsActions(inPrepare))
  {
    SyncIsExec(wired.(trace := [Invoked(Prepare)]), inPrepare);
  }

  /** The calls `run` makes take effect as actions right after the hook is
      invoked, from the state `prepare` left. */
  lemma StartIsExec(wired: RunState, inPrepare: seq<Call>, inRun: seq<Call>)
    requires wired.trace == [] && wired.id in wired.list
    ensures var prepared := RunPrepare(wired, inPrepare);
            Start(wired, inPrepare, inRun) == Exec(prepared.(trace := prepared.trace + [Invoked(Body)]), AsActions(inRun))
  {
    var prepared := RunPrepare(wired, inPrepare);
    SyncIsExec(prepared.(trace := prepared.trace + [Invoked(Body)]), inRun);
  }

  /** A started run is the freshly wired controller driven through its
      hooks: `prepare` (if any) and its calls, then `run` and its calls,
      every call acting exactly as the same call made later would. */
  lemma RunIsExec(list: List, name: string, hasCallback: bool, hasHandler: bool,
                  inPrepare: seq<Call>, inRun: seq<Call>, inCleanup: seq<Call>)
    requires Run(list, name, hasCallback, hasHandler, inPrepare, inRun, inCleanup).Some?
    ensures var wired := Wire(list, name, list[Normalize(name)], hasCallback, hasHandler, inCleanup);
            var prepared :=
              if wired.test.HasPrepare() then Exec(wired.(trace := [Invoked(Prepare)]), AsActions(inPrepare)) else wired;
            && prepared.id in prepared.list
            && Run(list, name, hasCallback, hasHandler, inPrepare, inRun, inCleanup).value ==
                 Exec(prepared.(trace := prepared.trace + [Invoked(Body)]), AsActions(inRun))
  {
    var wired := Wire(list, name, list[Normalize(name)], hasCallback, hasHandler, inCleanup);
    if wired.test.HasPrepare() {
      PrepareIsExec(wired, inPrepare);
    }
    StartIsExec(wired, inPrepare, inRun);
  }

  /** The calls `cleanup` makes take effect as actions right after the hook
      is invoked. */
  lemma CleanupIsExec(s: RunState)
    requires s.id in s.list && s.test.HasCleanup()
    ensures RunCleanup(s) == Exec(s.(trace := s.trace + [Invoked(Cleanup)]), AsActions(s.cleanupCalls))
  {
    SyncIsExec(s.(trace := s.trace + [Invoked(Cleanup)]), s.cleanupCalls);
  }
}

=== FILE: names.dfy ===
/** Name normalisation (`_getIdFromName` in src/puredom/TestSuite.js):
    a test's registry id is its name lower-cased, with every run of
    characters outside `[a-z0-9_]` removed. */
module Names {

  /** The characters the id alphabet `[a-z0-9_]` admits. */
  predicate IsIdChar(c: char) {
    'a' <= c <= 'z' || '0' <= c <= '9' || c == '_'
  }

  predicate IsId(s: string) {
    forall i :: 0 <= i < |s| ==> IsIdChar(s[i])
  }

  /** `toLowerCase` on one character, for the ASCII range. */
  function LowerChar(c: char): char {
    if 'A' <= c <= 'Z' then (c as int + 32) as char else c
  }

  function Lower(s: string): (r: string)
    ensures |r| == |s|
    ensures forall i :: 0 <= i < |s| ==> r[i] == LowerChar(s[i])
  {
    if s == [] then [] else [LowerChar(s[0])] + Lower(s[1..])
  }

  /** Reference definition of the stripping step: keep exactly the id
      characters, in order. */
  function KeepIdChars(s: string): (r: string)
    ensures IsId(r)
    ensures |r| <= |s|
  {
    if s == [] then []
    else (if IsIdChar(s[0]) then [s[0]] else []) + KeepIdChars(s[1..])
  }

  /** Length of the maximal run of non-id characters that starts `s`. */
  function LeadingRun(s: string): (k: nat)
    ensures k <= |s|
    ensures forall i :: 0 <= i < k ==> !IsIdChar(s[i])
    ensures k < |s| ==> IsIdChar(s[k])
  {
    if s == [] || IsIdChar(s[0]) then 0 else 1 + LeadingRun(s[1..])
  }

  /** `replace(/[^a-z0-9_]+/gm, '')`: scanning left to right, an id
      character is copied and each maximal run of other characters is
      replaced by the empty string. */
  function StripRuns(s: string): (r: string)
    ensures IsId(r)
    ensures |r| <= |s|
    decreases |s|
  {
    if s == [] then []
    else if IsIdChar(s[0]) then [s[0]] + StripRuns(s[1..])
    else StripRuns(s[LeadingRun(s)..])
  }

  /** `_getIdFromName(name)`. */
  function Normalize(name: string): (id: string)
    ensures IsId(id)
    ensures |id| <= |name|
  {
    StripRuns(Lower(name))
  }

  /** Two names that differ only in the case of ASCII letters. */
  predicate SameIgnoringCase(a: string, b: string) {
    |a| == |b| && forall i :: 0 <= i < |a| ==> LowerChar(a[i]) == LowerChar(b[i])
  }

  lemma {:induction false} SkipRun(s: string, k: nat)
    requires k <= |s|
    requires forall i :: 0 <= i < k ==> !IsIdChar(s[i])
    ensures KeepIdChars(s) == KeepIdChars(s[k..])
  {
    if k > 0 {
      assert s[1..][k - 1..] == s[k..];
      SkipRun(s[1..], k - 1);
    }
  }

  /** Removing maximal runs in one pass removes exactly the non-id
      characters: the regex replacement equals the per-character filter. */
  lemma {:induction false} StripRunsIsKeepIdChars(s: string)
    ensures StripRuns(s) == KeepIdChars(s)
    decreases |s|
  {
    if s == [] {
    } else if IsIdChar(s[0]) {
      StripRunsIsKeepIdChars(s[1..]);
    } else {
      var k := LeadingRun(s);
      SkipRun(s, k);
      StripRunsIsKeepIdChars(s[k..]);
    }
  }

  /** The id is the lower-cased name with each non-id character dropped. */
  lemma NormalizeIsFilter(name: string)
    ensures Normalize(name) == KeepIdChars(Lower(name))
  {
    StripRunsIsKeepIdChars(Lower(name));
  }

  lemma {:induction false} KeepIdCharsAppend(a: string, b: string)
    ensures KeepIdChars(a + b) == KeepIdChars(a) + KeepIdChars(b)
  {
    if a == [] {
      assert a + b == b;
    } else {
      var head := if IsIdChar(a[0]) then [a[0]] else [];
      assert (a + b)[0] == a[0];
      assert (a + b)[1..] == a[1..] + b;
      assert KeepIdChars(a + b) == head + KeepIdChars(a[1..] + b);
      KeepIdCharsAppend(a[1..], b);
      assert head + (KeepIdChars(a[1..]) + KeepIdChars(b)) == (head + KeepIdChars(a[1..])) + KeepIdChars(b);
    }
  }

  lemma LowerAppend(a: string, b: string)
    ensures Lower(a + b) == Lower(a) + Lower(b)
  {
  }

  /** Normalising distributes over concatenation, even though a run of
      stripped characters may straddle the boundary. */
  lemma NormalizeAppend(a: string, b: string)
    ensures Normalize(a + b) == Normalize(a) + Normalize(b)
  {
    NormalizeIsFilter(a + b);
    NormalizeIsFilter(a);
    NormalizeIsFilter(b);
    LowerAppend(a, b);
    KeepIdCharsAppend(Lower(a), Lower(b));
  }

  /** Characters that are not id characters even after lower-casing
      (spaces, punctuation) do not affect the id wherever they occur. */
  lemma NormalizeIgnoresPunctuation(a: string, junk: string, b: string)
    requires forall i :: 0 <= i < |junk| ==> !IsIdChar(LowerChar(junk[i]))
    ensures Normalize(a + junk + b) == Normalize(a + b)
  {
    NormalizeAppend(a + junk, b);
    NormalizeAppend(a, junk);
    NormalizeAppend(a, b);
    NormalizeIsFilter(junk);
    SkipRun(Lower(junk), |junk|);
  }

  lemma {:induction false} KeepIdCharsOfId(s: string)
    requires IsId(s)
    ensures KeepIdChars(s) == s
  {
    if s != [] {
      KeepIdCharsOfId(s[1..]);
    }
  }

  /** A string is its own id exactly when it is made of id characters. */
  lemma NormalizeFixpoint(s: string)
    ensures Normalize(s) == s <==> IsId(s)
  {
    if IsId(s) {
      assert Lower(s) == s;
      NormalizeIsFilter(s);
      KeepIdCharsOfId(s);
    }
  }

  /** Normalising an id again changes nothing. */
  lemma NormalizeIdempotent(name: string)
    ensures Normalize(Normalize(name)) == Normalize(name)
  {
    NormalizeFixpoint(Normalize(name));
  }

  /** Names that differ only in ASCII letter case share an id. */
  lemma NormalizeIgnoresCase(a: string, b: string)
    requires SameIgnoringCase(a, b)
    ensures Normalize(a) == Normalize(b)
  {
    assert Lower(a) == Lower(b);
  }

  lemma {:induction false} KeepIdCharsMembers(s: string, c: char)
    ensures c in KeepIdChars(s) <==> IsIdChar(c) && c in s
  {
    if s != [] {
      KeepIdCharsMembers(s[1..], c);
      assert s == [s[0]] + s[1..];
    }
  }

  /** A character occurs in the id exactly when it is an id character
      that some character of the name lower-cases to. */
  lemma NormalizeMembers(name: string, c: char)
    ensures c in Normalize(name) <==>
            IsIdChar(c) && exists i :: 0 <= i < |name| && LowerChar(name[i]) == c
  {
    NormalizeIsFilter(name);
    KeepIdCharsMembers(Lower(name), c);
    if c in Lower(name) {
      var i :| 0 <= i < |name| && Lower(name)[i] == c;
      assert LowerChar(name[i]) == c;
    }
  }

  /** Case and punctuation vanish: "My Test!" has the id "mytest". */
  lemma NormalizeDropsCaseAndPunctuation()
    ensures Normalize("My Test!") == "mytest"
  {
    assert "My Test!" == "My" + " " + "Test!" && "My" + "Test!" == "MyTest!";
    assert "MyTest!" == "MyTest" + "!" + "" && "MyTest" + "" == "MyTest";
    calc {
      Normalize("My Test!");
    == { NormalizeIgnoresPunctuation("My", " ", "Test!"); }
      Normalize("MyTest!");
    == { NormalizeIgnoresPunctuation("MyTest", "!", ""); }
      Normalize("MyTest");
    == { NormalizeIsFilter("MyTest"); }
      KeepIdChars(Lower("MyTest"));
    == { assert Lower("MyTest") == "mytest" by {
           forall i | 0 <= i < 6 ensures Lower("MyTest")[i] == "mytest"[i] {
             assert LowerChar("MyTest"[i]) == "mytest"[i];
           }
         } }
      KeepIdChars("mytest");
    == { assert IsId("mytest"); KeepIdCharsOfId("mytest"); }
      "mytest";
    }
  }

  /** The underscore is an id character, so "my_test" does not collide
      with "My Test!". */
  lemma NormalizeKeepsUnderscore()
    ensures Normalize("my_test") == "my_test"
    ensures Normalize("My Test!") != Normalize("my_test")
  {
    assert IsId("my_test");
    NormalizeFixpoint("my_test");
    NormalizeDropsCaseAndPunctuation();
    assert "mytest" != "my_test";
  }
}

=== FILE: registry.dfy ===
/** The test registry of src/puredom/TestSuite.js: `add`, `get` and
    `getList` over the suite's `list`, a map from normalised id to entry. */
module Registry {
  import opened Js
  import opened Names

  datatype Option<T> = None | Some(value: T)

  /** A test definition as `run` inspects it: a falsy value, or an object
      whose `prepare`, `run` and `cleanup` hooks are each present or not.
      The hooks' bodies are outside the model. */
  datatype Test = NoTest | Def(prepare: bool, run: bool, cleanup: bool) {
    /** `test && test.run`: the test can be run. */
    predicate Runnable() { Def? && run }
    predicate HasPrepare() { Def? && prepare }
    predicate HasCleanup() { Def? && cleanup }
  }

  /** One archived outcome, `{time, results}`. */
  datatype Record = Record(time: int, results: Value)

  /** A registry entry, `{name, test, results}`. */
  datatype Entry = Entry(name: string, test: Test, results: seq<Record>)

  /** The suite's `list`. */
  type List = map<string, Entry>

  /** Every entry sits at the id of its own display name; `Add` keeps this. */
  predicate WellKeyed(list: List) {
    forall id :: id in list ==> Normalize(list[id].name) == id
  }

  /** The ids of the entries whose display name is truthy (non-empty). */
  function NamedIds(list: List): set<string> {
    set id | id in list && list[id].name != ""
  }

  /** `add(name, test)`: a fresh entry with no archived results replaces
      whatever was stored at the name's id; every other id is untouched. */
  function Add(list: List, name: string, test: Test): (r: List)
    ensures r.Keys == list.Keys + {Normalize(name)}
    ensures r[Normalize(name)] == Entry(name, test, [])
    ensures forall id :: id in list && id != Normalize(name) ==> r[id] == list[id]
    ensures WellKeyed(list) ==> WellKeyed(r)
  {
    list[Normalize(name) := Entry(name, test, [])]
  }

  /** `get(name)`: the entry at the name's id, or `None` for `false`. */
  function Get(list: List, name: string): (r: Option<Entry>)
    ensures r.Some? <==> Normalize(name) in list
    ensures r.Some? ==> r.value == list[Normalize(name)]
  {
    var id := Normalize(name);
    if id in list then Some(list[id]) else None
  }

  /** Looking a name up right after adding it, or any name with the same
      id, finds the fresh entry; a name with another id sees the old list. */
  lemma GetAfterAdd(list: List, name: string, test: Test, other: string)
    ensures Normalize(other) == Normalize(name) ==>
              Get(Add(list, name, test), other) == Some(Entry(name, test, []))
    ensures Normalize(other) != Normalize(name) ==>
              Get(Add(list, name, test), other) == Get(list, other)
  {
  }

  /** A lookup ignores ASCII case: spelling a registered name in another
      case finds the same entry, and misses exactly when the name does. */
  lemma GetIgnoresCase(list: List, a: string, b: string)
    requires SameIgnoringCase(a, b)
    ensures Get(list, a) == Get(list, b)
  {
    NormalizeIgnoresCase(a, b);
  }

  /** In a well-keyed list, `get` finds an entry exactly when some stored
      display name normalises like the query, and then it is that entry. */
  lemma GetFindsByDisplayName(list: List, name: string)
    requires WellKeyed(list)
    ensures Get(list, name).Some? <==>
            exists id :: id in list && Normalize(list[id].name) == Normalize(name)
    ensures forall id :: id in list && Normalize(list[id].name) == Normalize(name) ==>
              Get(list, name) == Some(list[id])
  {
  }

  lemma {:induction false} DistinctCardinality(s: seq<string>)
    requires forall i, j :: 0 <= i < j < |s| ==> s[i] != s[j]
    ensures |set x | x in s| == |s|
  {
    if s != [] {
      DistinctCardinality(s[1..]);
      assert (set x | x in s) == {s[0]} + (set x | x in s[1..]);
      assert s[0] !in (set x | x in s[1..]);
    }
  }

  /** `getList()`: the display names of the entries whose name is truthy,
      one per entry, in some enumeration order; `ids` is that order, each
      named entry's id exactly once. In a well-keyed list the names are
      pairwise distinct. */
  method GetList(list: List) returns (names: seq<string>, ghost ids: seq<string>)
    ensures |ids| == |names|
    ensures forall i :: 0 <= i < |ids| ==> ids[i] in list && names[i] == list[ids[i]].name
    ensures forall i, j :: 0 <= i < j < |ids| ==> ids[i] != ids[j]
    ensures forall id :: id in ids <==> id in NamedIds(list)
    ensures |names| == |NamedIds(list)|
    ensures forall n :: n in names <==>
              n != "" && exists id :: id in list && list[id].name == n
    ensures WellKeyed(list) ==>
              forall i, j :: 0 <= i < j < |names| ==> names[i] != names[j]
  {
    names := [];
    ids := [];
    var rest := list.Keys;
    while rest != {}
      invariant rest <= list.Keys
      invariant |ids| == |names|
      invariant forall i :: 0 <= i < |ids| ==>
                  ids[i] in list && ids[i] !in rest && list[ids[i]].name != "" &&
                  names[i] == list[ids[i]].name
      invariant forall i, j :: 0 <= i < j < |ids| ==> ids[i] != ids[j]
      invariant forall id :: id in NamedIds(list) && id !in rest ==> id in ids
      decreases rest
    {
      var id :| id in rest;
      if list[id].name != "" {
        names := names + [list[id].name];
        ids := ids + [id];
      }
      rest := rest - {id};
    }
    assert (set x | x in ids) == NamedIds(list);
    DistinctCardinality(ids);
    forall n | n != "" && exists id :: id in list && list[id].name == n
      ensures n in names
    {
      var id :| id in list && list[id].name == n;
      assert id in NamedIds(list);
      var i :| 0 <= i < |ids| && ids[i] == id;
      assert names[i] == n;
    }
    if WellKeyed(list) {
      forall i, j | 0 <= i < j < |names|
        ensures names[i] != names[j]
      {
        assert Normalize(names[i]) == ids[i];
        assert Normalize(names[j]) == ids[j];
      }
    }
  }
}

=== FILE: scenarios.dfy ===
/** Complete runs of small tests, from registration to callback. */
module Scenarios {
  import opened Js
  import opened Names
  import opened Registry
  import opened Lifecycle

  const RunOnly := Def(false, true, false)

  /** `name` finds a registered test that has only a `run` hook. */
  predicate FindsRunOnly(list: List, name: string) {
    Get(list, name).Some? && Get(list, name).value.test == RunOnly
  }

  /** The state of a run of a test with only a `run` hook, after the hook
      returned having made `calls` on its sandbox. */
  lemma StartRunOnly(list: List, name: string, hasCallback: bool, hasHandler: bool, calls: seq<Call>)
    requires FindsRunOnly(list, name)
    ensures Run(list, name, hasCallback, hasHandler, [], calls, []) ==
              Some(Sync(Wire(list, name, Get(list, name).value, hasCallback, hasHandler, [])
                          .(trace := [Invoked(Body)]), calls))
  {
    assert [] + [Invoked(Body)] == [Invoked(Body)];
  }

  /** `add(name, {run: ...})` makes `name` find a run-only test. */
  lemma AddRunOnlyFinds(list: List, name: string)
    ensures FindsRunOnly(Add(list, name, RunOnly), name)
    ensures Get(Add(list, name, RunOnly), name) == Some(Entry(name, RunOnly, []))
  {
  }

  lemma EchoRunReturns(list: List, name: string)
    requires FindsRunOnly(list, name)
    ensures
      var r := Run(list, name, true, false, [], [Pass(Str("ok"))], []);
      && r.Some?
      && r.value.trace == [Invoked(Body)]
      && r.value.pending == [Str("ok")] && r.value.passed == Bool(true)
      && r.value.name == name && r.value.test == RunOnly && r.value.hasCallback && !r.value.hasHandler
      && r.value.id == Normalize(name) && r.value.list == list && !r.value.destroyed
  {
    StartRunOnly(list, name, true, false, [Pass(Str("ok"))]);
    var w := Wire(list, name, Get(list, name).value, true, false, []).(trace := [Invoked(Body)]);
    var p := Perform(w, Pass(Str("ok"))).state;
    assert Sync(w, [Pass(Str("ok"))]) == p by {
      assert Sync(p, []) == p;
    }
  }

  /** `add(name, {run: s => s.pass("ok")})`, then `run(name, callback)`:
      one tick after `pass` the suite fires 'finish' and calls back with
      ("ok", true), and the fresh entry archives "ok" with the tick's time. */
  lemma EchoPasses(list: List, name: string, now: int)
    ensures
      var registered := Add(list, name, RunOnly);
      var started := Run(registered, name, true, false, [], [Pass(Str("ok"))], []);
      && started.Some?
      && var ended := Exec(started.value, [Tick(now)]);
      && ended.destroyed
      && ended.passed == Bool(true)
      && ended.trace == [Invoked(Body), Fired("finish", name, [Str("ok"), Bool(true)]),
                         CalledBack(Str("ok"), Bool(true))]
      && ended.list[Normalize(name)] == Entry(name, RunOnly, [Record(now, Str("ok"))])
  {
    var registered := Add(list, name, RunOnly);
    AddRunOnlyFinds(list, name);
    EchoRunReturns(registered, name);
    EchoTick(Run(registered, name, true, false, [], [Pass(Str("ok"))], []).value, now);
  }

  /** The tick that ends the run above: with `passed` true and "ok" the one
      pending completion of a callback-only run of a run-only test. */
  lemma EchoTick(s: RunState, now: int)
    requires s.id in s.list && !s.destroyed && s.test == RunOnly
    requires s.hasCallback && !s.hasHandler
    requires s.trace == [Invoked(Body)] && s.pending == [Str("ok")] && s.passed == Bool(true)
    ensures var ended := Exec(s, [Tick(now)]);
      && ended.destroyed
      && ended.passed == Bool(true)
      && ended.trace == [Invoked(Body), Fired("finish", s.name, [Str("ok"), Bool(true)]),
                         CalledBack(Str("ok"), Bool(true))]
      && ended.list[s.id] == s.list[s.id].(results := s.list[s.id].results + [Record(now, Str("ok"))])
  {
    TickFinishes(s, Str("ok"), now);
    var m := OnMessage(s.(pending := []), Status, Str("ok")).0;
    assert m.trace == s.trace && m.finalResult == Str("ok");
    assert RunCleanup(m) == m;
    assert FinishEvents(m, Str("ok")) == [Fired("finish", s.name, [Str("ok"), Bool(true)]), CalledBack(Str("ok"), Bool(true))];
  }

  /** The timer of a live run with one pending completion fires: the
      'status' message with the `done` argument goes through `onMessage`,
      then `finish` runs. */
  lemma TickFinishes(s: RunState, v: Value, now: int)
    requires s.id in s.list && !s.destroyed && s.pending == [v]
    ensures Exec(s, [Tick(now)]) == Finish(OnMessage(s.(pending := []), Status, v).0, v, now)
  {
    var f := Fire(s, now).state;
    assert s.pending[1..] == [];
    assert Exec(s, [Tick(now)]) == f by {
      assert Exec(f, []) == f;
    }
  }

  lemma BusyRunReturns(list: List, name: string)
    requires FindsRunOnly(list, name)
    ensures
      var r := Run(list, name, true, false, [], [SetStatus(Str("working")), Done(Undefined)], []);
      && r.Some?
      && r.value.trace == [Invoked(Body), Logged(LogLine(list[Normalize(name)].name, Str("working")))]
      && r.value.finalResult == Str("working") && r.value.pending == [Undefined]
      && r.value.passed == Null && r.value.sandboxResults == Undefined
      && r.value.name == name && r.value.test == RunOnly && r.value.hasCallback && !r.value.hasHandler
      && r.value.title == list[Normalize(name)].name
      && r.value.id == Normalize(name) && r.value.list == list && !r.value.destroyed
  {
    BusyRunIs(list, name);
  }

  /** The same run as one state: the wired controller after `run`. */
  lemma BusyRunIs(list: List, name: string)
    requires FindsRunOnly(list, name)
    ensures
      var w := Wire(list, name, Get(list, name).value, true, false, []);
      Run(list, name, true, false, [], [SetStatus(Str("working")), Done(Undefined)], []) ==
        Some(w.(finalResult := Str("working"), pending := [Undefined],
                trace := [Invoked(Body), Logged(LogLine(w.title, Str("working")))]))
  {
    StartRunOnly(list, name, true, false, [SetStatus(Str("working")), Done(Undefined)]);
    BusySync(Wire(list, name, Get(list, name).value, true, false, []));
  }

  /** The calls of that test on a freshly wired controller without a
      message handler: the status is cached and logged after `run`, and
      one completion with `undefined` is queued. */
  lemma BusySync(w: RunState)
    requires !w.hasHandler && !w.destroyed && w.pending == []
    ensures Sync(w.(trace := [Invoked(Body)]), [SetStatus(Str("working")), Done(Undefined)]) ==
              w.(finalResult := Str("working"), pending := [Undefined],
                 trace := [Invoked(Body), Logged(LogLine(w.title, Str("working")))])
  {
    var calls := [SetStatus(Str("working")), Done(Undefined)];
    var b := w.(trace := [Invoked(Body)]);
    var line := Logged(LogLine(w.title, Str("working")));
    var p1 := b.(finalResult := Str("working"), trace := b.trace + [line]);
    StatusLogged(b, Str("working"));
    SyncStep(b, calls[0], [calls[1]]);
    SyncStep(p1, calls[1], []);
    assert b.trace + [line] == [Invoked(Body), line];
    assert p1.pending + [Undefined] == [Undefined];
  }

  /** `status(m)` on a live run without a message handler caches `m` and
      writes the default log line. */
  lemma StatusLogged(s: RunState, m: Value)
    requires !s.hasHandler && !s.destroyed
    ensures Perform(s, SetStatus(m)) ==
              Returned(s.(finalResult := m, trace := s.trace + [Logged(LogLine(s.title, m))]))
  {
  }

  /** `{run: s => { s.status("working"); s.done(); }}` run with a callback:
      the deferred 'status' message carries `done`'s missing argument and
      overwrites "working", so the callback receives `undefined` (and
      `passed` is still null); nothing is archived. */
  lemma StatusIsOverwrittenByDone(list: List, name: string, now: int)
    requires FindsRunOnly(list, name)
    ensures
      var started := Run(list, name, true, false, [], [SetStatus(Str("working")), Done(Undefined)], []);
      && started.Some?
      && started.value.finalResult == Str("working")
      && var ended := Exec(started.value, [Tick(now)]);
      && ended.destroyed
      && ended.trace == [Invoked(Body), Logged(LogLine(list[Normalize(name)].name, Str("working"))),
                         Fired("finish", name, [Undefined, Null]), CalledBack(Undefined, Null)]
      && ended.list == list
  {
    BusyRunReturns(list, name);
    var s := Run(list, name, true, false, [], [SetStatus(Str("working")), Done(Undefined)], []).value;
    TickFinishes(s, Undefined, now);
    var m := OnMessage(s.(pending := []), Status, Undefined).0;
    assert m.finalResult == Undefined && m.trace == s.trace;
  }

  /** `log(m)` on a live run with a message handler forwards the message
      and writes no log line. */
  lemma LogForwarded(s: RunState, m: Value)
    requires s.hasHandler && !s.destroyed
    ensures Perform(s, PostLog(m)) == Returned(s.(trace := s.trace + [Fired("log", s.name, [m]), Handled(Log, m)]))
  {
    assert Topic(Log) == "log";
  }

  lemma SyncThree(s: RunState, c1: Call, c2: Call, c3: Call)
    ensures Sync(s, [c1, c2, c3]) == Perform(Perform(Perform(s, c1).state, c2).state, c3).state
  {
    var p1 := Perform(s, c1).state;
    var p2 := Perform(p1, c2).state;
    SyncStep(s, c1, [c2, c3]);
    SyncStep(p1, c2, [c3]);
    SyncStep(p2, c3, []);
  }

  /** One synchronous call followed by the rest. */
  lemma SyncStep(s: RunState, c: Call, rest: seq<Call>)
    ensures Sync(s, [c] + rest) == Sync(Perform(s, c).state, rest)
  {
    assert ([c] + rest)[1..] == rest;
  }

  /** `pass(v)` on a live run records the verdict and schedules `done(v)`. */
  lemma PassRecorded(s: RunState, v: Value)
    requires !s.destroyed
    ensures Perform(s, Pass(v)).state == s.(passed := Bool(true), pending := s.pending + [v])
  {
  }

  /** Two `log` calls on a live run with a message handler. */
  lemma TwoLogsForwarded(w: RunState, a: Value, b: Value)
    requires w.hasHandler && !w.destroyed
    ensures Perform(Perform(w, PostLog(a)).state, PostLog(b)).state ==
              w.(trace := w.trace + [Fired("log", w.name, [a]), Handled(Log, a), Fired("log", w.name, [b]), Handled(Log, b)])
  {
    LogForwarded(w, a);
    var p1 := w.(trace := w.trace + [Fired("log", w.name, [a]), Handled(Log, a)]);
    LogForwarded(p1, b);
    Extend(w.trace, Fired("log", w.name, [a]), Handled(Log, a), Fired("log", w.name, [b]), Handled(Log, b));
  }

  /** Appending two pairs of events one after the other, kept apart from
      the scenario above so the solver sees only the sequences. */
  lemma Extend<T>(t: seq<T>, e1: T, e2: T, e3: T, e4: T)
    ensures (t + [e1, e2]) + [e3, e4] == t + [e1, e2, e3, e4]
  {
  }

  /** Two `log` calls and a `pass` on a live run with a message handler. */
  lemma LogLogPass(w: RunState, a: Value, b: Value, v: Value)
    requires w.hasHandler && !w.destroyed
    ensures Sync(w, [PostLog(a), PostLog(b), Pass(v)]) ==
              w.(trace := w.trace + [Fired("log", w.name, [a]), Handled(Log, a), Fired("log", w.name, [b]), Handled(Log, b)],
                 passed := Bool(true), pending := w.pending + [v])
  {
    SyncThree(w, PostLog(a), PostLog(b), Pass(v));
    TwoLogsForwarded(w, a, b);
    var p2 := w.(trace := w.trace + [Fired("log", w.name, [a]), Handled(Log, a), Fired("log", w.name, [b]), Handled(Log, b)]);
    PassRecorded(p2, v);
  }

  /** The state of the "log, log, pass" test's run after its `run` hook
      returned, with a callback and a message handler. */
  lemma ChattyRunReturns(list: List, name: string)
    requires FindsRunOnly(list, name)
    ensures
      var r := Run(list, name, true, true, [], [PostLog(Str("a")), PostLog(Str("b")), Pass(Num(1))], []);
      && r.Some?
      && r.value.trace == [Invoked(Body),
                           Fired("log", name, [Str("a")]), Handled(Log, Str("a")),
                           Fired("log", name, [Str("b")]), Handled(Log, Str("b"))]
      && r.value.pending == [Num(1)] && r.value.passed == Bool(true)
      && r.value.name == name && r.value.test == RunOnly && r.value.hasCallback && r.value.hasHandler
      && r.value.id in r.value.list && !r.value.destroyed
  {
    StartRunOnly(list, name, true, true, [PostLog(Str("a")), PostLog(Str("b")), Pass(Num(1))]);
    var w := Wire(list, name, Get(list, name).value, true, true, []).(trace := [Invoked(Body)]);
    LogLogPass(w, Str("a"), Str("b"), Num(1));
    var tail := [Fired("log", name, [Str("a")]), Handled(Log, Str("a")), Fired("log", name, [Str("b")]), Handled(Log, Str("b"))];
    var r := Sync(w, [PostLog(Str("a")), PostLog(Str("b")), Pass(Num(1))]);
    assert r.trace == [Invoked(Body)] + tail;
    Prepend(Invoked(Body), tail);
  }

  /** Putting one event before a four-event sequence, kept apart from the
      scenario above so the solver sees only the two sequences. */
  lemma Prepend<T>(e: T, t: seq<T>)
    requires |t| == 4
    ensures [e] + t == [e, t[0], t[1], t[2], t[3]]
  {
  }

  /** The timer of a live run with a handler and a callback fires for a
      truthy `done` argument of a test without `cleanup`: the handler sees
      the 'status' message, then 'finish' fires and the callback runs. */
  lemma TickWithHandler(s: RunState, v: Value, now: int)
    requires s.id in s.list && !s.destroyed && s.pending == [v] && Truthy(v)
    requires s.hasHandler && s.hasCallback && !s.test.HasCleanup()
    ensures Exec(s, [Tick(now)]).trace ==
              s.trace + [Fired("status", s.name, [v]), Handled(Status, v),
                         Fired("finish", s.name, [v, s.passed]), CalledBack(v, s.passed)]
  {
    TickFinishes(s, v, now);
    var m := OnMessage(s.(pending := []), Status, v).0;
    assert m.trace == s.trace + [Fired("status", s.name, [v]), Handled(Status, v)] by {
      assert Topic(Status) == "status";
    }
    assert FinishEvents(m, v) == [Fired("finish", s.name, [v, s.passed]), CalledBack(v, s.passed)];
  }

  /** `{run: s => { s.log("a"); s.log("b"); s.pass(1); }}` run with a
      callback and a message handler: the handler sees ("log","a"),
      ("log","b") and then ("status",1) -- never the 'result' message --
      and only afterwards does 'finish' fire and the callback run. */
  lemma MessagesPrecedeCallback(list: List, name: string, now: int)
    requires FindsRunOnly(list, name)
    ensures
      var started := Run(list, name, true, true, [], [PostLog(Str("a")), PostLog(Str("b")), Pass(Num(1))], []);
      && started.Some?
      && Exec(started.value, [Tick(now)]).trace ==
           [Invoked(Body),
            Fired("log", name, [Str("a")]), Handled(Log, Str("a")),
            Fired("log", name, [Str("b")]), Handled(Log, Str("b")),
            Fired("status", name, [Num(1)]), Handled(Status, Num(1)),
            Fired("finish", name, [Num(1), Bool(true)]),
            CalledBack(Num(1), Bool(true))]
  {
    ChattyRunReturns(list, name);
    var s := Run(list, name, true, true, [], [PostLog(Str("a")), PostLog(Str("b")), Pass(Num(1))], []).value;
    TickWithHandler(s, Num(1), now);
    var tail := [Fired("status", name, [Num(1)]), Handled(Status, Num(1)),
                 Fired("finish", name, [Num(1), Bool(true)]), CalledBack(Num(1), Bool(true))];
    Concat(s.trace, tail);
  }

  /** Gluing a five-event prefix to a four-event suffix, kept apart from
      the scenario above so the solver sees only the two sequences. */
  lemma Concat<T>(a: seq<T>, b: seq<T>)
    requires |a| == 5 && |b| == 4
    ensures a + b == [a[0], a[1], a[2], a[3], a[4], b[0], b[1], b[2], b[3]]
  {
  }

  /** A stray `done` after the callback has run throws instead of being
      ignored, and a second `done` in the same run leaves a timer that
      throws when it fires; neither calls back again. */
  lemma StrayCallsThrow(list: List, name: string, now: int)
    requires FindsRunOnly(list, name)
    ensures
      var started := Run(list, name, true, false, [], [Done(Str("x")), Done(Str("y"))], []);
      && started.Some?
      && var first := Step(started.value, Tick(now));
      && first.Returned? && first.state.destroyed
      && var second := Step(first.state, Tick(now));
      && second.Threw? && second.state.trace == first.state.trace
      && Perform(second.state, Done(Undefined)).Threw?
  {
    var calls := [Done(Str("x")), Done(Str("y"))];
    StartRunOnly(list, name, true, false, calls);
    var w := Wire(list, name, Get(list, name).value, true, false, []).(trace := [Invoked(Body)]);
    var p1 := Perform(w, calls[0]).state;
    SyncStep(w, calls[0], [calls[1]]);
    SyncStep(p1, calls[1], []);
    var p2 := Perform(p1, calls[1]).state;
    assert p2.pending == [Str("x"), Str("y")];
  }

  /** `cleanup` runs on the live sandbox before the final result is
      resolved: a status it sets becomes the final result of a run that
      completed with a falsy `done` argument. */
  lemma CleanupStatusBecomesResult(s: RunState, m: Value, now: int)
    requires s.id in s.list && !s.destroyed && s.test.HasCleanup()
    requires s.cleanupCalls == [SetStatus(m)] && !Truthy(s.sandboxResults)
    ensures Finish(s, Undefined, now).finalResult == m
  {
    var w := s.(trace := s.trace + [Invoked(Cleanup)]);
    var p := Perform(w, SetStatus(m)).state;
    SyncStep(w, SetStatus(m), []);
    assert [SetStatus(m)] + [] == [SetStatus(m)];
    assert Sync(p, []) == p;
    assert RunCleanup(s) == p;
  }

  /** A `done` made from `cleanup` leaves a timer behind; when it fires the
      controller is already destroyed, so it throws. */
  lemma CleanupDoneThrowsLater(s: RunState, v: Value, now: int, later: int)
    requires s.id in s.list && !s.destroyed && s.test.HasCleanup()
    requires s.cleanupCalls == [Done(v)] && s.pending == []
    ensures Finish(s, Undefined, now).pending == [v]
    ensures Step(Finish(s, Undefined, now), Tick(later)).Threw?
  {
    var w := s.(trace := s.trace + [Invoked(Cleanup)]);
    var p := Perform(w, Done(v)).state;
    SyncStep(w, Done(v), []);
    assert [Done(v)] + [] == [Done(v)];
    assert Sync(p, []) == p;
    assert RunCleanup(s) == p;
  }
}
